=== FILE: README.md ===
# AmpyFin decision and bookkeeping core, in Dafny

This project models the deterministic core of AmpyFin's crypto trading bot. The
bot's parts are:

* **Simulation ledger and points model.** Every strategy trades on paper. A buy
  is guarded by a 15000 cash reserve, a positive quantity and a 10%
  concentration cap. It merges into the position at a weighted-average cost.
  A sell is clamped to the held quantity, counted as successful, neutral or
  failed, and scored in tiers of the time delta. The position is removed once
  it reaches zero.
* **Portfolio valuation and ranking epoch.** A strategy's portfolio value is its
  cash plus its holdings at market. Only tickers of the form `A/B` (upper-case
  letters) are counted. Strategies other than "test" and "test_strategy" are
  pushed onto a min-heap under a composite key and get ranks 1..N in pop order.
* **Ensemble fuser and live risk gate.** Strategy votes are summed into buy,
  sell and hold weights. A strict majority wins, with the median quantity of the
  winning bucket. For each ticker the live loop then does one of four things:
  * sells at once on a stop-loss or take-profit breach;
  * queues a buy under the reserve and the cap;
  * sells a held position;
  * suggests a buy for an unheld ticker with a very high buy weight.

  Afterwards the buy heap, then the suggestion heap, is drained while cash stays
  above the reserve.
* **Live bookkeeping and selectors.** `place_order` adjusts the tracked quantity
  by the quantity rounded to 3 decimals. A buy sets limits at 97% and 105% of
  the price, rounded to cents. A sell that empties the position deletes the
  quantity and the limits. Two small selectors are also modelled: the
  market-status classification and the choice of the bar period with the lowest
  score.

Prices, account reads, strategy decisions, the time delta and broker outcomes
are parameters. Each call is one atomic transition on immutable data.

## Modules

| file | module | contents |
|---|---|---|
| wrappers.dfy | `Wrappers` | `Option`, `Result`, map lookup |
| ordering.dfy | `Ordering` | Python's string order, total orders, insertion sort (the heap model), sort lemmas |
| sequences.dfy | `Sequences` | `FilterMap` and its permutation lemma |
| policy.dfy | `Policy` | the 15000 reserve floor and the 10% concentration cap |
| ledger.dfy | `Ledger` | `simulate_trade` |
| valuation.dfy | `Valuation` | the `^[A-Z]+/[A-Z]+$` filter and `update_portfolio_values` |
| ranking.dfy | `Ranking` | `update_ranks` |
| fuser.dfy | `Fuser` | `weighted_majority_decision_and_median_quantity` |
| livebook.dfy | `LiveBook` | Python rounding; `place_order`'s bookkeeping |
| selectors.dfy | `Selectors` | `market_status`; the rule of `dynamic_period_selector` |
| gate.dfy | `RiskGate` | the per-ticker override and gating in the live loop |
| drain.dfy | `BuyQueue` | the buy and suggestion heaps and their drain |
| scenarios.dfy | `Scenarios` | worked examples on concrete numbers |

Numbers are Dafny `real`s, so they are exact rationals. Python's `round` is
round-half-even on the exact value. `x // y` followed by `int` is `.Floor`.
A `heapq` heap is a sequence kept in pop order: a push is an ordered insert and
a pop takes the head. Python's tuple and string comparisons are written out
(`KeyLe`, `EntryLe`, `StrLe`). Each division by zero that Python would raise is
an explicit `Failure`.

## Model

| member | source | states |
|---|---|---|
| Ledger.Trade | ranking_client.py:121-213 | The account changes only when the action is "buy" and the whole buy guard holds, or the action is "sell" on a position with positive quantity. Otherwise the account is returned unchanged, which covers other labels and refused trades; a buy refused by its cash or quantity guard is a no-op even when the portfolio value is zero. The trade fails with a zero portfolio value exactly when a buy passes its cash and quantity guards and the portfolio value is zero, where the source divides by it. The points tally moves only on a sell. No other ticker, the name and the portfolio value are untouched. Sound ledgers (positive quantities and costs) stay sound when the trade price is positive, and never fail when the portfolio value is non-zero. |
| Ledger.ApplyBuy | ranking_client.py:123-147 | Quantity becomes old + qty. Cash is debited by qty·price. total_trades goes up by exactly 1. A new position costs the trade price. A merged position's average is the weighted average: avg·qty = old_avg·old_qty + price·qty, so the cost basis is conserved. It also lies between the old average and the trade price. A new quantity of zero is the division-by-zero failure. |
| Ledger.Merge | ranking_client.py:124-126 | The weighted average conserves cost basis (avg·qty = old_avg·old_qty + price·qty). For positive quantities it lies between the old average and the price. |
| Ledger.ApplySell | ranking_client.py:149-211 | The sold quantity is min(requested, held). Cash is credited by sold·price and total_trades goes up by 1. Exactly one of the successful, neutral and failed counters goes up. The entry is deleted when the remainder is 0 and otherwise kept at the same average. The award is the tiered points. A zero average cost is the ZeroDivisionError. |
| Ledger.SoldQuantity | ranking_client.py:152 | The quantity sold never exceeds the held or the requested quantity and equals one of them. |
| Ledger.Classify | ranking_client.py:157-181 | Successful iff price > avg; neutral iff price == avg; failed iff price < avg. |
| Ledger.SellPoints | ranking_client.py:164-188 | Above the average: +1Δ below ratio 1.05, +1.5Δ below 1.10, otherwise +2Δ. Otherwise: −1Δ above 0.975, −1.5Δ above 0.95, otherwise −2Δ. Each tier is stated as a price band against the average. For a positive time delta, points are positive iff price > avg. A neutral sell scores −1Δ. |
| Ledger.AverageCostWithinBuyPrices | ranking_client.py:121-134 | Take a sound ledger, a positive lower bound `lo`, and buy prices all within [`lo`, `hi`]. If the ticker is already held, its average must also lie in that band. Then after the buys the ledger stays sound and the ticker's average cost stays within [`lo`, `hi`]. |
| Ledger.TradeConservesMarkValue | ranking_client.py:141-205 | A trade only exchanges cash for quantity at the trade price. Cash plus the held quantity valued at that price is unchanged. |
| Valuation.MatchPairIsPairShape | ranking_client.py:222 | The scanner accepts exactly one or more upper-case letters, then "/", then one or more upper-case letters. |
| Valuation.HoldingsValueRemove | ranking_client.py:221-235 | The holdings value is additive: the value of a map is one ticker's contribution plus the value of the rest, whatever ticker is split off. |
| Valuation.HoldingsValueAdd | ranking_client.py:221-235 | Adding a new ticker adds exactly its contribution. |
| Valuation.MalformedHoldingsWorthNothing | ranking_client.py:222-224 | Holdings whose tickers all fail the format filter contribute nothing. |
| Valuation.HoldingsValueNonNegative | ranking_client.py:234-235 | Non-negative quantities at non-negative prices give a non-negative holdings value. |
| Valuation.Revalue | ranking_client.py:219-236 | Revaluation rewrites the portfolio value and nothing else in the document. |
| Valuation.RevalueCashOnly | ranking_client.py:220-224 | With only malformed tickers, the portfolio value is the cash. |
| Valuation.RevalueAtLeastCash | ranking_client.py:220-235 | A sound ledger at non-negative prices is worth at least its cash. |
| Valuation.RevalueAll | ranking_client.py:219-236 | Every document keeps its name, cash, holdings and counters; only its portfolio value is rewritten. A sound document at non-negative prices is worth at least its cash. A document without well-formed tickers is worth exactly its cash. |
| Valuation.TradeAtMarketKeepsValue | ranking_client.py:121-236 | A trade on a well-formed ticker at the market price leaves the revalued portfolio value unchanged: the account the trade returns is worth what the account before it was. |
| Ranking.KeyOf | ranking_client.py:249-253 | The heap key is (2·points + portfolio value if points > 0, else portfolio value; successful − failed; cash; name). |
| Ranking.KeyLeTotalOrder | ranking_client.py:251-256 | Python's tuple order on keys is a total order, so the pop order is determined. |
| Ranking.Standings | ranking_client.py:244-256 | The pop order is ascending in the key order and is a permutation of the pushed keys. |
| Ranking.Epoch | ranking_client.py:243-258 | The epoch fails iff some non-reserved strategy has no points record. Otherwise the i-th record names the i-th popped strategy with rank i+1. |
| Ranking.RankTable | ranking_client.py:243-258 | Prior ranks are deleted first, so a failing epoch leaves the rank table empty. |
| Ranking.RanksAreOneToN | ranking_client.py:254-258 | There are as many ranks as non-reserved strategies. They are exactly {1..N} and pairwise distinct. |
| Ranking.RankedAreTheEligible | ranking_client.py:245-257 | The ranked names are, as a multiset, exactly the non-reserved strategies. |
| Ranking.ReservedNeverRanked | ranking_client.py:247-248 | "test" and "test_strategy" never receive a rank. |
| Ranking.RankOneIsSmallestKey | ranking_client.py:254-257 | Rank 1 goes to the strategy with the smallest key. |
| Ranking.EpochIgnoresDocumentOrder | ranking_client.py:245-258 | The ranking does not depend on the order in which the documents are read. |
| Fuser.BucketOf | trading_client.py:50-67 | "buy" and "strong buy" vote buy; "sell" and "strong sell" vote sell; "hold" votes hold; any other label votes nothing. |
| Fuser.Median | trading_client.py:73-75 | The median lies within the range of the values. |
| Fuser.MedianOfSorted | trading_client.py:73-75 | On ascending values the median is the middle value, or the mean of the two middle values. |
| Fuser.MedianIgnoresOrder | trading_client.py:73-75 | The median depends only on the multiset of values. |
| Fuser.BucketQuantity | trading_client.py:73-75 | An empty bucket reports 0. Otherwise the quantity lies within the bucket's range. |
| Fuser.Fuse | trading_client.py:44-77 | The weights are the per-bucket sums of the votes. Buy iff B > S and B > H; sell iff S > B and S > H; otherwise, ties included, hold with quantity 0. The quantity is the median of the winning bucket's own quantities. |
| Fuser.UnknownLabelIgnored | trading_client.py:60-67 | A vote with an unknown label changes no weight and no quantity list. |
| LiveBook.RoundHalfEven | helper_files/alpaca_client_helper.py:57-61 | Rounding moves a value by at most one half, and of two equally near integers it picks the even one. |
| LiveBook.RoundHalfEvenMonotone | helper_files/alpaca_client_helper.py:60-61 | Rounding is monotone. |
| LiveBook.Round2 | helper_files/alpaca_client_helper.py:60-61 | Rounding to cents is within half a cent. |
| LiveBook.Round3 | helper_files/alpaca_client_helper.py:58 | Rounding to 3 decimals is within half a milli-unit. |
| LiveBook.Round2Monotone | helper_files/alpaca_client_helper.py:60-61 | Rounding to cents is monotone. |
| LiveBook.BuyLimits | helper_files/alpaca_client_helper.py:60-61 | At a non-negative price the stop-loss does not exceed the take-profit. Each limit is within half a cent of 97% and of 105% of the price. |
| LiveBook.PlaceOrder | helper_files/alpaca_client_helper.py:57-88 | The bookkeeping fails iff the latest price cannot be read. No other symbol changes. A buy adds round(qty, 3) to the tracked quantity (from 0 when absent) and sets the limits. A sell subtracts it and deletes both entries iff the result is exactly 0; otherwise the limits are kept. |
| LiveBook.SellAllClearsSymbol | helper_files/alpaca_client_helper.py:84-88 | When the tracked quantity already has at most three decimals and the price read succeeds, selling exactly that quantity removes the symbol's quantity and limits. A quantity with more decimals is decremented by its three-decimal rounding and can be left non-zero. |
| LiveBook.BuyThenSellRestoresAssets | helper_files/alpaca_client_helper.py:77-88 | Selling what was just bought restores every tracked quantity, unless the symbol was tracked at exactly zero. |
| Selectors.StatusOf | helper_files/alpaca_client_helper.py:130-140 | "open" iff both nasdaq and nyse are open. Otherwise "early_hours" iff the flag is set, otherwise "closed". "error" iff the request failed. |
| Selectors.Scores | helper_files/alpaca_client_helper.py:180-207 | A period has a score iff its probe produced one. A failed request, an empty bar list or any exception while scoring, such as a zero first close, yields no score. Scores are kept in period order. |
| Selectors.FirstMinimum | helper_files/alpaca_client_helper.py:210 | `min` returns the first smallest score. |
| Selectors.ChosenIndex | helper_files/alpaca_client_helper.py:180-210 | The chosen period has the lowest score of all scored periods. Every earlier scored period has a strictly higher score. |
| Selectors.SelectPeriod | helper_files/alpaca_client_helper.py:209-210 | The result is always one of the five periods. It is "1D" when nothing was scored, and otherwise the chosen lowest-score period. |
| RiskGate.EntryLeTotalOrder | trading_client.py:175-189 | Python's tuple order on heap entries is a total order. |
| RiskGate.Affordable | trading_client.py:183-184 | The affordable quantity is the largest whole quantity within both the cap's budget and the cash. |
| RiskGate.SuggestedQuantity | trading_client.py:186-187 | The suggestion is half the affordable quantity, rounded down, and at least 1. |
| RiskGate.Gate | trading_client.py:114-193 | A zero portfolio value fails every ticker. A breached limit forces a sell of the whole tracked quantity before any verdict is looked at. Each outcome holds iff its guard holds and no earlier guard did: a queued buy with priority −(B − (S + 0.5·H)); a sell of max(q, 1) on a held ticker; the zero-price failure or a suggestion with priority −(B − S) above weight 2050000. A hold verdict never queues a buy or sells at once, but it can still yield a suggestion, which the drain later buys. |
| RiskGate.ForcedSellClearsTicker | trading_client.py:138-147 | When the tracked quantity has at most three decimals and the price read after the order succeeds, the forced sell, booked by the bookkeeping, removes the ticker's quantity and limits. |
| BuyQueue.Heap | trading_client.py:175-209 | A heap pops a permutation of what was pushed, in ascending tuple order. The highest net conviction (most negative priority) pops first. |
| BuyQueue.HeapsIgnoreTickerOrder | trading_client.py:105-193 | For a fixed multiset of per-ticker decisions, both heaps, and so the order of dispatch, do not depend on the order in which those decisions were made. The decisions themselves can depend on the visiting order, because each ticker reads the account afresh after earlier sells. |
| BuyQueue.Settle | helper_files/alpaca_client_helper.py:56-88 | A dispatched buy changes only its own ticker. When both the order and the price read succeed, it adds the quantity rounded to three decimals and sets the ticker's stop-loss and take-profit limits from the read price. When the broker refuses the order or the price read fails, the book is left exactly as it was. |
| BuyQueue.BookedTouchesOnlyOrdered | helper_files/alpaca_client_helper.py:77-88 | A run of dispatches changes only the tickers that were ordered. |
| BuyQueue.NextOrder | trading_client.py:204-213 | Each pop takes the buy heap's next entry while one is left, and only then the suggestion heap's. |
| BuyQueue.Drain | trading_client.py:198-221 | Orders leave in heap order, with the whole buy heap before any suggestion. Every order follows a loop test and a fresh account read, both above the reserve. The loop stops only when both heaps are empty, the cash is at the reserve, or a dispatch raised; it stops on the first failure. The book is the one left by the dispatched orders. |
| Scenarios.FirstBuyOpensPosition | ranking_client.py:121-147 | From an empty ledger, a buy of 50 at 100 against a portfolio of 500000 opens 50 at 100, leaves 45000 cash and counts one trade. |
| Scenarios.ProfitableSellTopTier | ranking_client.py:149-211 | Selling 20 of 50 bought at 100 for 110 scores 2Δ, counts a success, credits 2200 and keeps 30 at 100. |
| Scenarios.NeutralSellCostsPoints | ranking_client.py:170-188 | A sell at exactly the average cost counts as neutral and scores −1Δ. |
| Scenarios.ThreeVotes | trading_client.py:58-73 | Votes (buy, 10, 5), (sell, 5, 3) and (hold, 0, 1) yield buy with quantity 10. |

## Behaviour of the code worth noting

The model follows the code.

* A sell at exactly the average cost goes through the loss branch and scores
  −1Δ (ranking_client.py:170-184).
* The rank heap pops the smallest key first, so rank 1 goes to the lowest
  composite key (ranking_client.py:254-257).
* The period selector takes the minimum score, though its comment says
  "highest" (helper_files/alpaca_client_helper.py:209-210).
* `update_ranks` deletes the old ranks before it reads any points record. A
  missing record therefore ends the epoch with an empty rank table.
* The cash-to-portfolio ratio at trading_client.py:114 is computed for every
  ticker, so a zero portfolio value fails every ticker, including the
  stop-loss override.
* `get_latest_price` in helper_files/alpaca_client_helper.py:143-162 reads an
  `api_key` and an `api_secret` that are not defined in that module. The
  resulting `NameError` is caught at lines 162-164, so as written the function
  always returns `None`. Every `place_order` therefore submits its order
  (line 57) and then raises a `TypeError` on `None * 0.97` (line 60). The
  paper-trade log and the asset and limit bookkeeping (lines 63-88) never run,
  and the buy-queue drain stops after its first order. The model keeps the
  price read as an optional value: `None` is the program as written, and the
  delivered-price branches of `LiveBook.PlaceOrder`, `BuyQueue.Settle`,
  `LiveBook.SellAllClearsSymbol`, `LiveBook.BuyThenSellRestoresAssets` and
  `RiskGate.ForcedSellClearsTicker` describe the bookkeeping the code
  evidently intends, which it never reaches as written.
* The same `get_latest_price` takes one parameter
  (helper_files/alpaca_client_helper.py:143), while ranking_client.py:73,
  ranking_client.py:229 and trading_client.py:128 pass three. Each such call
  raises a `TypeError`, which the surrounding retry loops catch and repeat
  without end. The model takes the price as a parameter instead.
* A hold verdict does not only stand still. On an unheld ticker whose buy
  weight exceeds the sell weight and 2050000, with cash above the reserve and
  room under the 10% cap, it is pushed on the suggestion heap
  (trading_client.py:181-189), and the drain buys it once the buy heap is
  empty (trading_client.py:210-211).

## Left out

- I/O and concurrency: Mongo reads and writes, HTTP and broker calls, logging, `print`, threads, `time.sleep`, the outer `while True` loops and the unbounded retry loops. Each call is one atomic transition; prices, account reads and broker outcomes are parameters.
- `simulate_strategy`, `get_data` and the indicator functions are not part of this model. Their `(action, quantity)` is a parameter.
- The volatility and trend score of `dynamic_period_selector` (`np.std`) is floating-point numerics. The selection works over given per-period probes.
- The portfolio-percentage write with the constant 50491.13 is pure I/O.
- The wiring in `trading_client.main`, where the fuser is never called and stale variables feed the gate, is not modelled. The gate takes a fused verdict as a parameter.
- Python float arithmetic: reals are exact, so float rounding errors in sums, ratios and `round` are not modelled.
- `last_updated` timestamps and the `HistoricalDatabase` deletion are store writes with no effect on the modelled state.
- Ledger.Trade: the source takes `portfolio_qty` and `total_portfolio_value` from the caller's snapshot. The model reads both from the same account document, as the caller does.
- Ledger.Trade: a missing strategy document or a missing counter field (a `KeyError` or `TypeError` in the source) is not modelled. Documents always carry every field.
- BuyQueue.Drain: a failed account read inside the drain, which also ends the loop through the `except`, is not modelled. Account reads always return a cash figure.
- The crypto ticker list, `get_alpaca_crypto_tickers` and `connect_to_mongo` are I/O.

=== FILE: drain.dfy ===
/**
 * The two buy heaps filled during a pass over the tickers, and their drain: the
 * buy heap is emptied first, then the suggestion heap, one market buy at a time,
 * for as long as a fresh read of the account shows cash above the reserve and no
 * order raises.
 */
module BuyQueue {
  import opened Wrappers
  import opened Ordering
  import opened Sequences
  import opened Policy
  import opened LiveBook
  import opened RiskGate

  /** The buy-heap entry a ticker's decision pushed, if any. */
  function QueuedEntry(d: Result<GateAction, GateError>): (e: Option<Entry>)
    ensures e.Some? <==> d.Success? && d.value.QueueBuy?
  {
    if d.Success? && d.value.QueueBuy? then Some(d.value.entry) else None
  }

  /** The suggestion-heap entry a ticker's decision pushed, if any. */
  function SuggestedEntry(d: Result<GateAction, GateError>): (e: Option<Entry>)
    ensures e.Some? <==> d.Success? && d.value.Suggest?
  {
    if d.Success? && d.value.Suggest? then Some(d.value.entry) else None
  }

  /** A heap in pop order, built from the entries pushed onto it. */
  function Heap(pushed: seq<Entry>): (h: seq<Entry>)
    ensures multiset(h) == multiset(pushed)
    ensures SortedBy(EntryLe, h)
    // the highest conviction (most negative priority) pops first
    ensures forall i, j | 0 <= i < j < |h| :: h[i].priority <= h[j].priority
  {
    EntryLeTotalOrder();
    SortSorted(EntryLe, pushed);
    Sort(EntryLe, pushed)
  }

  /** The buy heap after a pass over the tickers' decisions. */
  function BuyHeap(decisions: seq<Result<GateAction, GateError>>): seq<Entry>
  {
    Heap(FilterMap(QueuedEntry, decisions))
  }

  /** The suggestion heap after a pass over the tickers' decisions. */
  function SuggestionHeap(decisions: seq<Result<GateAction, GateError>>): seq<Entry>
  {
    Heap(FilterMap(SuggestedEntry, decisions))
  }

  /** The order in which the tickers were visited does not change either heap. */
  lemma HeapsIgnoreTickerOrder(a: seq<Result<GateAction, GateError>>, b: seq<Result<GateAction, GateError>>)
    requires multiset(a) == multiset(b)
    ensures BuyHeap(a) == BuyHeap(b)
    ensures SuggestionHeap(a) == SuggestionHeap(b)
  {
    EntryLeTotalOrder();
    FilterMapPermutation(QueuedEntry, a, b);
    SortPermutationInvariant(EntryLe, FilterMap(QueuedEntry, a), FilterMap(QueuedEntry, b));
    FilterMapPermutation(SuggestedEntry, a, b);
    SortPermutationInvariant(EntryLe, FilterMap(SuggestedEntry, a), FilterMap(SuggestedEntry, b));
  }

  /** The book after the `k`-th dispatched order: unchanged when the broker refused
      the order or the price read afterwards failed. */
  function Settle(book: Book, e: Entry, submitted: bool, price: Option<real>): (b: Book)
    ensures forall s | s != e.ticker ::
              && (s in b.assets <==> s in book.assets) && (s in book.assets ==> b.assets[s] == book.assets[s])
              && (s in b.limits <==> s in book.limits) && (s in book.limits ==> b.limits[s] == book.limits[s])
    ensures submitted && price.Some? ==>
              && e.ticker in b.assets && b.assets[e.ticker] == Held(book, e.ticker) + Round3(e.quantity)
              && e.ticker in b.limits && b.limits[e.ticker] == BuyLimits(price.value)
    // a refused order or a failed price read writes nothing
    ensures !(submitted && price.Some?) ==> b == book
  {
    if !submitted then book
    else
      match PlaceOrder(book, e.ticker, BuyOrder, e.quantity, price)
      case Success(c) => c
      case Failure(_) => book
  }

  /** The book after dispatching `orders` in turn; order `k` is submitted when
      `submitted(k)` and is followed by the price read `priceAt(k)`. */
  function Booked(book: Book, orders: seq<Entry>, submitted: nat -> bool, priceAt: nat -> Option<real>): (b: Book)
    decreases |orders|
  {
    if |orders| == 0 then book
    else
      var n := |orders| - 1;
      Settle(Booked(book, orders[..n], submitted, priceAt), orders[n], submitted(n), priceAt(n))
  }

  /** The symbol's quantity and limits are the same in both books. */
  ghost predicate SameEntry(b: Book, c: Book, s: string)
  {
    && (s in b.assets <==> s in c.assets) && (s in c.assets ==> b.assets[s] == c.assets[s])
    && (s in b.limits <==> s in c.limits) && (s in c.limits ==> b.limits[s] == c.limits[s])
  }

  /** Dispatching orders changes only the ordered tickers' entries. */
  lemma {:induction false} BookedTouchesOnlyOrdered(book: Book, orders: seq<Entry>, submitted: nat -> bool,
                                                     priceAt: nat -> Option<real>, s: string)
    requires forall k | 0 <= k < |orders| :: orders[k].ticker != s
    ensures SameEntry(Booked(book, orders, submitted, priceAt), book, s)
    decreases |orders|
  {
    if |orders| > 0 {
      var n := |orders| - 1;
      BookedTouchesOnlyOrdered(book, orders[..n], submitted, priceAt, s);
    }
  }

  lemma BookedSnoc(book: Book, orders: seq<Entry>, e: Entry, submitted: nat -> bool, priceAt: nat -> Option<real>)
    ensures Booked(book, orders + [e], submitted, priceAt)
            == Settle(Booked(book, orders, submitted, priceAt), e, submitted(|orders|), priceAt(|orders|))
  {
    assert (orders + [e])[..|orders|] == orders;
  }

  /** The next pop: from the buy heap while it has entries, then from the
      suggestion heap. */
  function NextOrder(buyHeap: seq<Entry>, suggestionHeap: seq<Entry>, fromBuy: nat, fromSuggestions: nat): (r: (Entry, nat, nat))
    requires fromBuy <= |buyHeap| && fromSuggestions <= |suggestionHeap|
    requires fromSuggestions > 0 ==> fromBuy == |buyHeap|
    requires fromBuy < |buyHeap| || fromSuggestions < |suggestionHeap|
    ensures r.1 <= |buyHeap| && r.2 <= |suggestionHeap|
    ensures r.2 > 0 ==> r.1 == |buyHeap|
    ensures r.1 + r.2 == fromBuy + fromSuggestions + 1
    ensures r.1 == fromBuy + 1 <==> fromBuy < |buyHeap|
    ensures buyHeap[..r.1] + suggestionHeap[..r.2] == buyHeap[..fromBuy] + suggestionHeap[..fromSuggestions] + [r.0]
  {
    if fromBuy < |buyHeap| then
      assert buyHeap[..fromBuy + 1] == buyHeap[..fromBuy] + [buyHeap[fromBuy]];
      (buyHeap[fromBuy], fromBuy + 1, fromSuggestions)
    else
      assert suggestionHeap[..fromSuggestions + 1] == suggestionHeap[..fromSuggestions] + [suggestionHeap[fromSuggestions]];
      (suggestionHeap[fromSuggestions], fromBuy, fromSuggestions + 1)
  }

  lemma ReadsStayAbove(cashAt: nat -> real, k: nat)
    requires k > 0 ==> forall n: nat | n <= k :: AboveReserve(cashAt, n)
    requires AboveReserve(cashAt, k) && AboveReserve(cashAt, k + 1)
    ensures forall n: nat | n <= k + 1 :: AboveReserve(cashAt, n)
  {
  }

  /** The k-th order went through and was booked. */
  predicate Delivered(submitted: nat -> bool, priceAt: nat -> Option<real>, k: nat)
  {
    submitted(k) && priceAt(k).Some?
  }

  /** The n-th account read shows cash above the reserve. */
  predicate AboveReserve(cashAt: nat -> real, n: nat)
  {
    cashAt(n) > ReserveFloor
  }

  /** The drain's state after some iterations: the orders dispatched so far, how
      many entries each heap gave, how many account reads were taken, whether the
      last dispatch raised, the book, and the cash of the latest read. */
  datatype DrainState = DrainState(orders: seq<Entry>, fromBuy: nat, fromSuggestions: nat,
                                   accountReads: nat, failed: bool, after: Book, cash: real)

  /** The loop test: an entry is left, the latest read is above the reserve, and no
      dispatch raised. */
  predicate Continues(buyHeap: seq<Entry>, suggestionHeap: seq<Entry>, st: DrainState)
  {
    (st.fromBuy < |buyHeap| || st.fromSuggestions < |suggestionHeap|) && st.cash > ReserveFloor && !st.failed
  }

  /** The orders are the popped prefixes of the two heaps, buy heap first. */
  predicate HeapShape(buyHeap: seq<Entry>, suggestionHeap: seq<Entry>, st: DrainState)
  {
    && st.fromBuy <= |buyHeap| && st.fromSuggestions <= |suggestionHeap|
    && st.orders == buyHeap[..st.fromBuy] + suggestionHeap[..st.fromSuggestions]
    && (st.fromSuggestions > 0 ==> st.fromBuy == |buyHeap|)
  }

  /** One read per dispatched order plus the read before the loop (and possibly
      a final read at or below the reserve); every read before an order was above it. */
  predicate ReadLog(cashAt: nat -> real, st: DrainState)
  {
    && st.accountReads >= 1 && st.cash == cashAt(st.accountReads - 1)
    && (st.accountReads == |st.orders| + 1 || (st.accountReads == |st.orders| + 2 && !st.failed && st.cash <= ReserveFloor))
    && (|st.orders| > 0 ==> forall n: nat | n <= |st.orders| :: AboveReserve(cashAt, n))
  }

  /** Every order but the last went through; the last raised iff the drain failed. */
  predicate DispatchLog(submitted: nat -> bool, priceAt: nat -> Option<real>, st: DrainState)
  {
    && (st.failed <==> |st.orders| > 0 && !Delivered(submitted, priceAt, |st.orders| - 1))
    && (forall k | 0 <= k < |st.orders| - 1 :: Delivered(submitted, priceAt, k))
  }

  /** The book is the one the dispatched orders left. */
  predicate BookLog(book: Book, submitted: nat -> bool, priceAt: nat -> Option<real>, st: DrainState)
  {
    st.after == Booked(book, st.orders, submitted, priceAt)
  }

  /** What holds of the drain's state at every loop test. */
  predicate Invariant(buyHeap: seq<Entry>, suggestionHeap: seq<Entry>, book: Book, cashAt: nat -> real,
                      submitted: nat -> bool, priceAt: nat -> Option<real>, st: DrainState)
  {
    && HeapShape(buyHeap, suggestionHeap, st)
    && ReadLog(cashAt, st)
    && DispatchLog(submitted, priceAt, st)
    && BookLog(book, submitted, priceAt, st)
  }

  /** Twice the entries left, plus one while the loop may still read without popping. */
  function Remaining(buyHeap: seq<Entry>, suggestionHeap: seq<Entry>, st: DrainState): int
  {
    2 * (|buyHeap| - st.fromBuy + |suggestionHeap| - st.fromSuggestions)
      + (if st.cash > ReserveFloor && !st.failed then 1 else 0)
  }

  /** The state after a fresh read showing `cash` and the pop and dispatch it allows. */
  function Advance(buyHeap: seq<Entry>, suggestionHeap: seq<Entry>, submitted: nat -> bool,
                   priceAt: nat -> Option<real>, st: DrainState, cash: real): (st': DrainState)
    requires HeapShape(buyHeap, suggestionHeap, st)
    requires st.fromBuy < |buyHeap| || st.fromSuggestions < |suggestionHeap|
    ensures HeapShape(buyHeap, suggestionHeap, st')
    ensures |st'.orders| == |st.orders| + 1 && st'.orders == st.orders + [st'.orders[|st.orders|]]
    ensures st'.fromBuy + st'.fromSuggestions == st.fromBuy + st.fromSuggestions + 1
  {
    var next := NextOrder(buyHeap, suggestionHeap, st.fromBuy, st.fromSuggestions);
    var k := |st.orders|;
    DrainState(st.orders + [next.0], next.1, next.2, st.accountReads + 1,
               !Delivered(submitted, priceAt, k), Settle(st.after, next.0, submitted(k), priceAt(k)), cash)
  }

  lemma AdvanceReads(buyHeap: seq<Entry>, suggestionHeap: seq<Entry>, cashAt: nat -> real, submitted: nat -> bool,
                     priceAt: nat -> Option<real>, st: DrainState)
    requires HeapShape(buyHeap, suggestionHeap, st) && ReadLog(cashAt, st)
    requires Continues(buyHeap, suggestionHeap, st) && cashAt(st.accountReads) > ReserveFloor
    ensures ReadLog(cashAt, Advance(buyHeap, suggestionHeap, submitted, priceAt, st, cashAt(st.accountReads)))
  {
    ReadsStayAbove(cashAt, |st.orders|);
  }

  lemma AdvanceDispatch(buyHeap: seq<Entry>, suggestionHeap: seq<Entry>, submitted: nat -> bool,
                        priceAt: nat -> Option<real>, st: DrainState, cash: real)
    requires HeapShape(buyHeap, suggestionHeap, st) && DispatchLog(submitted, priceAt, st)
    requires Continues(buyHeap, suggestionHeap, st)
    ensures DispatchLog(submitted, priceAt, Advance(buyHeap, suggestionHeap, submitted, priceAt, st, cash))
  {
  }

  lemma AdvanceBook(buyHeap: seq<Entry>, suggestionHeap: seq<Entry>, book: Book, submitted: nat -> bool,
                    priceAt: nat -> Option<real>, st: DrainState, cash: real)
    requires HeapShape(buyHeap, suggestionHeap, st) && BookLog(book, submitted, priceAt, st)
    requires st.fromBuy < |buyHeap| || st.fromSuggestions < |suggestionHeap|
    ensures BookLog(book, submitted, priceAt, Advance(buyHeap, suggestionHeap, submitted, priceAt, st, cash))
  {
    var st' := Advance(buyHeap, suggestionHeap, submitted, priceAt, st, cash);
    BookedSnoc(book, st.orders, st'.orders[|st.orders|], submitted, priceAt);
  }

  /** One iteration: a fresh account read, then, if the cash is above the reserve,
      one pop and its dispatch. */
  method Step(buyHeap: seq<Entry>, suggestionHeap: seq<Entry>, book: Book, cashAt: nat -> real,
              submitted: nat -> bool, priceAt: nat -> Option<real>, st: DrainState) returns (st': DrainState)
    requires Invariant(buyHeap, suggestionHeap, book, cashAt, submitted, priceAt, st)
    requires Continues(buyHeap, suggestionHeap, st)
    ensures Invariant(buyHeap, suggestionHeap, book, cashAt, submitted, priceAt, st')
    ensures 0 <= Remaining(buyHeap, suggestionHeap, st') < Remaining(buyHeap, suggestionHeap, st)
    ensures st'.accountReads == st.accountReads + 1
  {
    var cash := cashAt(st.accountReads);
    if cash > ReserveFloor {
      st' := Advance(buyHeap, suggestionHeap, submitted, priceAt, st, cash);
      AdvanceReads(buyHeap, suggestionHeap, cashAt, submitted, priceAt, st);
      AdvanceDispatch(buyHeap, suggestionHeap, submitted, priceAt, st, cash);
      AdvanceBook(buyHeap, suggestionHeap, book, submitted, priceAt, st, cash);
    } else {
      st' := st.(accountReads := st.accountReads + 1, cash := cash);
    }
  }

  /** The drain. `cashAt(n)` is the cash shown by the n-th account read (read 0 is
      taken before the loop); `submitted(k)` says whether the broker accepted the
      k-th order and `priceAt(k)` is the price read in its bookkeeping. */
  method Drain(buyHeap: seq<Entry>, suggestionHeap: seq<Entry>, book: Book,
               cashAt: nat -> real, submitted: nat -> bool, priceAt: nat -> Option<real>)
    returns (orders: seq<Entry>, fromBuy: nat, fromSuggestions: nat, accountReads: nat, failed: bool, after: Book)
    // orders leave in heap order, the whole buy heap before any suggestion
    ensures fromBuy <= |buyHeap| && fromSuggestions <= |suggestionHeap|
    ensures orders == buyHeap[..fromBuy] + suggestionHeap[..fromSuggestions]
    ensures fromSuggestions > 0 ==> fromBuy == |buyHeap|
    // each order follows two reads above the reserve: the loop test and the fresh read
    ensures |orders| > 0 ==> forall n: nat | n <= |orders| :: AboveReserve(cashAt, n)
    ensures accountReads == |orders| + 1 || (accountReads == |orders| + 2 && !failed && cashAt(accountReads - 1) <= ReserveFloor)
    // the drain stops only when both heaps are empty, the cash is at the reserve, or an order raised
    ensures failed || (fromBuy == |buyHeap| && fromSuggestions == |suggestionHeap|) || cashAt(accountReads - 1) <= ReserveFloor
    ensures failed <==> |orders| > 0 && !Delivered(submitted, priceAt, |orders| - 1)
    ensures forall k | 0 <= k < |orders| - 1 :: Delivered(submitted, priceAt, k)
    ensures after == Booked(book, orders, submitted, priceAt)
  {
    var st := DrainState([], 0, 0, 1, false, book, cashAt(0));
    while Continues(buyHeap, suggestionHeap, st)
      invariant Invariant(buyHeap, suggestionHeap, book, cashAt, submitted, priceAt, st)
      decreases Remaining(buyHeap, suggestionHeap, st)
    {
      st := Step(buyHeap, suggestionHeap, book, cashAt, submitted, priceAt, st);
    }
    orders, fromBuy, fromSuggestions, accountReads, failed, after :=
      st.orders, st.fromBuy, st.fromSuggestions, st.accountReads, st.failed, st.after;
  }
}

=== FILE: fuser.dfy ===
/**
 * The ensemble decision fuser (`weighted_majority_decision_and_median_quantity`).
 * Each strategy's vote is a signal label, a quantity and the weight of the strategy.
 * "buy" and "strong buy" go to the buy bucket, "sell" and "strong sell" to the sell
 * bucket, "hold" to the hold bucket; any other label counts nowhere. A bucket wins
 * only with a weight strictly above both others; otherwise the verdict is hold.
 * The quantity is the plain (unweighted) median of the winning bucket's quantities.
 */
module Fuser {
  import opened Wrappers
  import opened Ordering

  datatype Vote = Vote(signal: string, quantity: real, weight: real)

  datatype Bucket = BuyBucket | SellBucket | HoldBucket

  /** The fused verdict for one ticker. */
  datatype Side = Buy | Sell | Hold

  /** The verdict, its quantity and the three bucket weights. */
  datatype Fused = Fused(action: Side, quantity: real, buyWeight: real, sellWeight: real, holdWeight: real)

  /** The bucket a label votes for, if any. */
  function BucketOf(signal: string): (b: Option<Bucket>)
    ensures b == Some(BuyBucket) <==> signal in {"buy", "strong buy"}
    ensures b == Some(SellBucket) <==> signal in {"sell", "strong sell"}
    ensures b == Some(HoldBucket) <==> signal == "hold"
  {
    if signal == "buy" || signal == "strong buy" then Some(BuyBucket)
    else if signal == "sell" || signal == "strong sell" then Some(SellBucket)
    else if signal == "hold" then Some(HoldBucket)
    else None
  }

  /** Total weight of the votes for bucket `b`. */
  function Weight(votes: seq<Vote>, b: Bucket): real
  {
    if |votes| == 0 then 0.0
    else Weight(votes[..|votes| - 1], b) + (if BucketOf(votes[|votes| - 1].signal) == Some(b) then votes[|votes| - 1].weight else 0.0)
  }

  /** The quantities of the votes for bucket `b`, in vote order. */
  function Quantities(votes: seq<Vote>, b: Bucket): seq<real>
  {
    if |votes| == 0 then []
    else Quantities(votes[..|votes| - 1], b) + (if BucketOf(votes[|votes| - 1].signal) == Some(b) then [votes[|votes| - 1].quantity] else [])
  }

  /** `statistics.median`: the middle of the sorted values, or the mean of the two
      middle values when there is an even number of them. */
  function Median(xs: seq<real>): (m: real)
    requires |xs| > 0
    ensures exists i | 0 <= i < |xs| :: xs[i] <= m
    ensures exists j | 0 <= j < |xs| :: m <= xs[j]
  {
    var s := Sort(RealLe, xs);
    var mid := |s| / 2;
    RealLeTotalOrder();
    SortSorted(RealLe, xs);
    assert s[mid] in multiset(xs);
    if |s| % 2 == 1 then
      s[mid]
    else
      assert s[mid - 1] in multiset(xs);
      assert RealLe(s[mid - 1], s[mid]);
      (s[mid - 1] + s[mid]) / 2.0
  }

  /** The median is a function of the multiset of values, not of their order. */
  lemma MedianIgnoresOrder(xs: seq<real>, ys: seq<real>)
    requires |xs| > 0 && multiset(xs) == multiset(ys)
    ensures |ys| > 0 && Median(xs) == Median(ys)
  {
    assert |ys| == |multiset(ys)| == |xs|;
    SameSortedValues(xs, ys);
  }

  lemma SameSortedValues(xs: seq<real>, ys: seq<real>)
    requires multiset(xs) == multiset(ys)
    ensures Sort(RealLe, xs) == Sort(RealLe, ys)
  {
    RealLeTotalOrder();
    SortPermutationInvariant(RealLe, xs, ys);
  }

  /** On values already in ascending order the median is read off the middle. */
  lemma MedianOfSorted(xs: seq<real>)
    requires |xs| > 0 && SortedBy(RealLe, xs)
    ensures |xs| % 2 == 1 ==> Median(xs) == xs[|xs| / 2]
    ensures |xs| % 2 == 0 ==> Median(xs) == (xs[|xs| / 2 - 1] + xs[|xs| / 2]) / 2.0
  {
    RealLeTotalOrder();
    SortSorted(RealLe, xs);
    SortedUnique(RealLe, Sort(RealLe, xs), xs);
  }

  /** The quantity reported for a winning bucket: its median, or 0 when it is empty. */
  function BucketQuantity(qs: seq<real>): (q: real)
    ensures |qs| == 0 ==> q == 0.0
    ensures |qs| > 0 ==> (exists i | 0 <= i < |qs| :: qs[i] <= q) && (exists j | 0 <= j < |qs| :: q <= qs[j])
  {
    if |qs| == 0 then 0.0 else Median(qs)
  }

  /** The fuser: one pass over the votes, then the strict-majority rule. */
  method Fuse(votes: seq<Vote>) returns (r: Fused)
    ensures r.buyWeight == Weight(votes, BuyBucket)
    ensures r.sellWeight == Weight(votes, SellBucket)
    ensures r.holdWeight == Weight(votes, HoldBucket)
    ensures r.action == Buy <==> r.buyWeight > r.sellWeight && r.buyWeight > r.holdWeight
    ensures r.action == Sell <==> r.sellWeight > r.buyWeight && r.sellWeight > r.holdWeight
    ensures r.action == Buy ==> r.quantity == BucketQuantity(Quantities(votes, BuyBucket))
    ensures r.action == Sell ==> r.quantity == BucketQuantity(Quantities(votes, SellBucket))
    ensures r.action == Hold ==> r.quantity == 0.0
  {
    var buyQuantities: seq<real> := [];
    var sellQuantities: seq<real> := [];
    var buyWeight, sellWeight, holdWeight := 0.0, 0.0, 0.0;
    var i := 0;
    while i < |votes|
      invariant 0 <= i <= |votes|
      invariant buyWeight == Weight(votes[..i], BuyBucket)
      invariant sellWeight == Weight(votes[..i], SellBucket)
      invariant holdWeight == Weight(votes[..i], HoldBucket)
      invariant buyQuantities == Quantities(votes[..i], BuyBucket)
      invariant sellQuantities == Quantities(votes[..i], SellBucket)
    {
      var v := votes[i];
      assert votes[..i + 1][..i] == votes[..i];
      if v.signal == "buy" || v.signal == "strong buy" {
        buyQuantities := buyQuantities + [v.quantity];
        buyWeight := buyWeight + v.weight;
      } else if v.signal == "sell" || v.signal == "strong sell" {
        sellQuantities := sellQuantities + [v.quantity];
        sellWeight := sellWeight + v.weight;
      } else if v.signal == "hold" {
        holdWeight := holdWeight + v.weight;
      }
      i := i + 1;
    }
    assert votes[..i] == votes;
    if buyWeight > sellWeight && buyWeight > holdWeight {
      r := Fused(Buy, BucketQuantity(buyQuantities), buyWeight, sellWeight, holdWeight);
    } else if sellWeight > buyWeight && sellWeight > holdWeight {
      r := Fused(Sell, BucketQuantity(sellQuantities), buyWeight, sellWeight, holdWeight);
    } else {
      r := Fused(Hold, 0.0, buyWeight, sellWeight, holdWeight);
    }
  }

  /** A vote whose label is none of the five known ones changes neither any bucket
      weight nor any bucket's quantities. */
  lemma UnknownLabelIgnored(votes: seq<Vote>, v: Vote, b: Bucket)
    requires BucketOf(v.signal).None?
    ensures Weight(votes + [v], b) == Weight(votes, b)
    ensures Quantities(votes + [v], b) == Quantities(votes, b)
  {
    assert (votes + [v])[..|votes|] == votes;
  }
}

=== FILE: gate.dfy ===
/**
 * One pass of the live trading loop over a ticker, after the fused verdict is
 * known: the stop-loss / take-profit override, the buy / sell / suggestion
 * gating, and the drain of the two buy heaps while cash stays above the reserve.
 */
module RiskGate {
  import opened Wrappers
  import opened Ordering
  import opened Policy
  import opened Fuser
  import opened LiveBook

  /** A heap entry `(priority, quantity, ticker)`; a smaller priority pops first. */
  datatype Entry = Entry(priority: real, quantity: real, ticker: string)

  /** Python's tuple order on heap entries. */
  function EntryLe(x: Entry, y: Entry): bool
  {
    || x.priority < y.priority
    || (x.priority == y.priority && x.quantity < y.quantity)
    || (x.priority == y.priority && x.quantity == y.quantity && StrLe(x.ticker, y.ticker))
  }

  lemma EntryLeTotalOrder()
    ensures TotalOrder(EntryLe)
  {
    forall x: Entry, y: Entry
      ensures EntryLe(x, y) || EntryLe(y, x)
    {
      StrLeTotal(x.ticker, y.ticker);
    }
    forall x: Entry, y: Entry | EntryLe(x, y) && EntryLe(y, x)
      ensures x == y
    {
      if x.priority == y.priority && x.quantity == y.quantity {
        StrLeAntisymmetric(x.ticker, y.ticker);
      }
    }
    forall x: Entry, y: Entry, z: Entry | EntryLe(x, y) && EntryLe(y, z)
      ensures EntryLe(x, z)
    {
      if x.priority == y.priority == z.priority && x.quantity == y.quantity == z.quantity {
        StrLeTransitive(x.ticker, y.ticker, z.ticker);
      }
    }
  }

  /** Buy weight above which an unheld ticker is suggested for purchase. */
  const SuggestionWeight: real := 2050000.0

  /** What the loop does with one ticker. */
  datatype GateAction =
    | ForceSell(quantity: real)   // a limit was breached: sell the tracked quantity at once
    | SellNow(quantity: real)     // sell verdict on a held ticker: sell at once
    | QueueBuy(entry: Entry)      // pushed onto the buy heap
    | Suggest(entry: Entry)       // pushed onto the suggestion heap
    | Stand                       // hold, no action

  /** The exceptions that end the processing of a ticker. */
  datatype GateError = ZeroPortfolioValue | ZeroPrice

  /** The tracked live quantity of a ticker (0 when untracked). */
  function Held(book: Book, ticker: string): (q: real)
    ensures ticker in book.assets ==> q == book.assets[ticker]
    ensures ticker !in book.assets ==> q == 0.0
  {
    Lookup(book.assets, ticker).GetOr(0.0)
  }

  /** The price has reached the ticker's stop-loss or take-profit limit. */
  predicate LimitBreached(book: Book, ticker: string, price: real)
  {
    ticker in book.limits && (price <= book.limits[ticker].stopLoss || price >= book.limits[ticker].takeProfit)
  }

  /** The position after buying `quantity` more would stay under the concentration cap. */
  predicate UnderCap(book: Book, ticker: string, price: real, quantity: real, portfolioValue: real)
    requires portfolioValue != 0.0
  {
    (quantity + Held(book, ticker)) * price / portfolioValue < ConcentrationCap
  }

  /** The gate that queues a buy. */
  predicate BuyGate(book: Book, ticker: string, price: real, f: Fused, cash: real, portfolioValue: real)
    requires portfolioValue != 0.0
  {
    f.action == Buy && cash > ReserveFloor && UnderCap(book, ticker, price, f.quantity, portfolioValue)
  }

  /** The gate that sells at once. */
  predicate SellGate(book: Book, ticker: string, f: Fused)
  {
    f.action == Sell && Held(book, ticker) > 0.0
  }

  /** The gate that considers a suggestion for an unheld ticker. */
  predicate SuggestionGate(book: Book, ticker: string, price: real, f: Fused, cash: real, portfolioValue: real)
    requires portfolioValue != 0.0
  {
    && Held(book, ticker) == 0.0
    && f.buyWeight > f.sellWeight
    && UnderCap(book, ticker, price, f.quantity, portfolioValue)
    && cash > ReserveFloor
  }

  /** The whole quantity a suggestion may buy: the smaller of what the concentration
      cap and the cash allow, in whole units. */
  function Affordable(price: real, cash: real, portfolioValue: real): (n: int)
    requires price > 0.0
    ensures (n + 1) as real * price > portfolioValue * ConcentrationCap || (n + 1) as real * price > cash
    ensures n as real * price <= portfolioValue * ConcentrationCap && n as real * price <= cash
  {
    var byCap := (portfolioValue * ConcentrationCap / price).Floor;
    var byCash := (cash / price).Floor;
    FloorTimes(portfolioValue * ConcentrationCap, price);
    FloorTimes(cash, price);
    if byCap <= byCash then byCap else byCash
  }

  /** `x // p` in whole units: at most `x`, and one more unit would exceed it. */
  lemma FloorTimes(x: real, p: real)
    requires p > 0.0
    ensures (x / p).Floor as real * p <= x < ((x / p).Floor + 1) as real * p
  {
    var q := x / p;
    assert q * p == x;
    assert (q.Floor as real) * p <= q * p;
    var gap := (q.Floor + 1) as real - q;
    assert gap > 0.0;
    assert gap * p > 0.0;
    var next := (q.Floor + 1) as real;
    assert next == q + gap;
    assert (q + gap) * p == q * p + gap * p;
    assert next * p > x;
  }

  /** The suggested quantity: half the affordable quantity, but at least one unit. */
  function SuggestedQuantity(affordable: int): (q: int)
    ensures q >= 1
    ensures affordable >= 2 ==> 2 * q <= affordable <= 2 * q + 1
    ensures affordable < 2 ==> q == 1
  {
    (if affordable < 2 then 2 else affordable) / 2
  }

  /** Net conviction of a queued buy: buy weight over sell weight plus half the hold weight. */
  function BuyConviction(f: Fused): real
  {
    f.buyWeight - (f.sellWeight + f.holdWeight * 0.5)
  }

  /** The decision for one ticker, given the live book, the current price, the fused
      verdict and one account snapshot. */
  function Gate(book: Book, ticker: string, price: real, f: Fused, cash: real, portfolioValue: real): (r: Result<GateAction, GateError>)
    // the cash-to-portfolio ratio is computed first, for every ticker
    ensures r == Failure(ZeroPortfolioValue) <==> portfolioValue == 0.0
    // a breached limit overrides every verdict
    ensures portfolioValue != 0.0 && LimitBreached(book, ticker, price) ==>
              r == Success(ForceSell(Held(book, ticker)))
    ensures r.Success? && r.value.ForceSell? ==> LimitBreached(book, ticker, price)
    ensures r.Success? && r.value.QueueBuy? <==>
              && portfolioValue != 0.0 && !LimitBreached(book, ticker, price)
              && BuyGate(book, ticker, price, f, cash, portfolioValue)
    ensures r.Success? && r.value.QueueBuy? ==>
              r.value.entry == Entry(-BuyConviction(f), f.quantity, ticker)
    ensures r.Success? && r.value.SellNow? <==>
              && portfolioValue != 0.0 && !LimitBreached(book, ticker, price)
              && !BuyGate(book, ticker, price, f, cash, portfolioValue) && SellGate(book, ticker, f)
    ensures r.Success? && r.value.SellNow? ==>
              && r.value.quantity >= 1.0 && r.value.quantity >= f.quantity
              && (r.value.quantity == 1.0 || r.value.quantity == f.quantity)
    ensures r == Failure(ZeroPrice) <==>
              && portfolioValue != 0.0 && !LimitBreached(book, ticker, price)
              && !BuyGate(book, ticker, price, f, cash, portfolioValue) && !SellGate(book, ticker, f)
              && SuggestionGate(book, ticker, price, f, cash, portfolioValue) && price == 0.0
    ensures r.Success? && r.value.Suggest? <==>
              && portfolioValue != 0.0 && !LimitBreached(book, ticker, price)
              && !BuyGate(book, ticker, price, f, cash, portfolioValue) && !SellGate(book, ticker, f)
              && SuggestionGate(book, ticker, price, f, cash, portfolioValue) && price != 0.0
              && f.buyWeight > SuggestionWeight
    ensures r.Success? && r.value.Suggest? ==>
              && r.value.entry.priority == -(f.buyWeight - f.sellWeight)
              && r.value.entry.ticker == ticker
              && r.value.entry.quantity >= 1.0
              && (price > 0.0 ==> r.value.entry.quantity == SuggestedQuantity(Affordable(price, cash, portfolioValue)) as real)
    // a hold verdict never queues a buy or sells at once (it can still be suggested)
    ensures f.action == Hold && !LimitBreached(book, ticker, price) && r.Success? ==>
              r.value.Stand? || r.value.Suggest?
  {
    if portfolioValue == 0.0 then Failure(ZeroPortfolioValue)
    else
      var held := Held(book, ticker);
      if LimitBreached(book, ticker, price) then Success(ForceSell(held))
      else if BuyGate(book, ticker, price, f, cash, portfolioValue) then
        Success(QueueBuy(Entry(-BuyConviction(f), f.quantity, ticker)))
      else if SellGate(book, ticker, f) then
        Success(SellNow(if f.quantity >= 1.0 then f.quantity else 1.0))
      else if SuggestionGate(book, ticker, price, f, cash, portfolioValue) then
        if price == 0.0 then Failure(ZeroPrice)
        else
          var byCap := (portfolioValue * ConcentrationCap / price).Floor;
          var byCash := (cash / price).Floor;
          var affordable := if byCap <= byCash then byCap else byCash;
          if f.buyWeight > SuggestionWeight then
            Success(Suggest(Entry(-(f.buyWeight - f.sellWeight), SuggestedQuantity(affordable) as real, ticker)))
          else Success(Stand)
      else Success(Stand)
  }

  /** A breached limit sells the whole tracked quantity, and the bookkeeping of that
      sell removes the ticker and its limits from the book (when the tracked
      quantity has at most three decimals). */
  lemma ForcedSellClearsTicker(book: Book, ticker: string, price: real, f: Fused, cash: real,
                               portfolioValue: real, latest: real)
    requires portfolioValue != 0.0 && LimitBreached(book, ticker, price)
    requires Round3(Held(book, ticker)) == Held(book, ticker)
    ensures var r := Gate(book, ticker, price, f, cash, portfolioValue);
            && r.Success? && r.value.ForceSell?
            && var after := PlaceOrder(book, ticker, SellOrder, r.value.quantity, Some(latest));
            && after.Success? && ticker !in after.value.assets && ticker !in after.value.limits
  {
  }
}

=== FILE: ledger.dfy ===
/**
 * The simulation ledger of one strategy and its points model: one call of
 * `simulate_trade` applied atomically to the strategy's account snapshot.
 * The strategy's decision (action label and quantity) and the process-wide
 * time delta are parameters; the store reads and writes become the returned
 * account and the returned points award.
 */
module Ledger {
  import opened Wrappers
  import opened Policy

  /** One holding: quantity and weighted-average cost ("price" in the store). */
  datatype Position = Position(quantity: real, price: real)

  /** A strategy's document in the simulation store. */
  datatype Account = Account(
    name: string,
    cash: real,
    portfolioValue: real,
    holdings: map<string, Position>,
    totalTrades: nat,
    successfulTrades: nat,
    failedTrades: nat,
    neutralTrades: nat)

  /** The divisions by zero the source would raise instead of updating the store. */
  datatype TradeError =
    | ZeroPortfolioValue    // concentration ratio with a zero portfolio value
    | ZeroPositionQuantity  // averaging into a position whose new quantity is zero
    | ZeroAveragePrice      // sell ratio against a zero average cost

  /** How a sell is counted. */
  datatype Verdict = Successful | Neutral | Failed

  /** The account after the call, and the points added to the strategy's tally
      (`None` when the tally is not touched: buys, holds and refused trades). */
  datatype Effect = Effect(account: Account, award: Option<real>)

  /** Quantity the strategy holds of `ticker`, 0 when it holds none. */
  function HeldQuantity(a: Account, ticker: string): (q: real)
    ensures ticker !in a.holdings ==> q == 0.0
    ensures ticker in a.holdings ==> q == a.holdings[ticker].quantity
  {
    if ticker in a.holdings then a.holdings[ticker].quantity else 0.0
  }

  /** The ledger invariant: every holding has a positive quantity and a positive cost. */
  predicate Sound(a: Account)
  {
    forall t | t in a.holdings :: a.holdings[t].quantity > 0.0 && a.holdings[t].price > 0.0
  }

  /** `x` lies between `lo` and `hi`, whichever of the two is smaller. */
  predicate Between(x: real, lo: real, hi: real)
  {
    (lo <= x <= hi) || (hi <= x <= lo)
  }

  /** `a'` differs from `a` at most in the holding of `ticker`. */
  ghost predicate OtherHoldingsUnchanged(a: map<string, Position>, a': map<string, Position>, ticker: string)
  {
    forall t | t != ticker :: (t in a <==> t in a') && (t in a ==> a[t] == a'[t])
  }

  /** The buy guard of the source: reserve floor, positive quantity, concentration cap. */
  predicate BuyAllowed(a: Account, ticker: string, price: real, qty: real)
  {
    && a.cash - qty * price > ReserveFloor
    && qty > 0.0
    && a.portfolioValue != 0.0
    && (HeldQuantity(a, ticker) + qty) * price / a.portfolioValue < ConcentrationCap
  }

  /** A sell is considered only for a holding with a positive quantity. */
  predicate SellAllowed(a: Account, ticker: string)
  {
    ticker in a.holdings && a.holdings[ticker].quantity > 0.0
  }

  /** Merges a fill of `qty` at `price` into `p` with a weighted-average cost. */
  function Merge(p: Position, qty: real, price: real): (r: Position)
    requires p.quantity + qty != 0.0
    ensures r.quantity == p.quantity + qty
    ensures r.price * r.quantity == p.price * p.quantity + price * qty
    ensures p.quantity > 0.0 && qty > 0.0 ==> Between(r.price, p.price, price)
  {
    var q := p.quantity + qty;
    var avg := (p.price * p.quantity + price * qty) / q;
    assert avg * q == p.price * p.quantity + price * qty;
    assert p.quantity > 0.0 && qty > 0.0 ==> Between(avg, p.price, price) by {
      if p.quantity > 0.0 && qty > 0.0 {
        MergeBetween(p.price, p.quantity, price, qty, avg);
      }
    }
    Position(q, avg)
  }

  lemma MergeBetween(oldPrice: real, oldQty: real, price: real, qty: real, avg: real)
    requires oldQty > 0.0 && qty > 0.0
    requires avg * (oldQty + qty) == oldPrice * oldQty + price * qty
    ensures Between(avg, oldPrice, price)
  {
    // avg - oldPrice and price - avg carry the same sign, weighted by qty and oldQty
    assert (avg - oldPrice) * (oldQty + qty) == (price - oldPrice) * qty;
    assert (price - avg) * (oldQty + qty) == (price - oldPrice) * oldQty;
    if oldPrice <= price {
      assert (avg - oldPrice) * (oldQty + qty) >= 0.0;
      assert (price - avg) * (oldQty + qty) >= 0.0;
    } else {
      assert (avg - oldPrice) * (oldQty + qty) <= 0.0;
      assert (price - avg) * (oldQty + qty) <= 0.0;
    }
  }

  /** A successful buy: merge into the holding, debit the cash, count one trade. */
  function ApplyBuy(a: Account, ticker: string, price: real, qty: real): (r: Result<Account, TradeError>)
    requires qty > 0.0
    ensures r.Failure? <==> ticker in a.holdings && a.holdings[ticker].quantity + qty == 0.0
    ensures r.Success? ==> && ticker in r.value.holdings
                           && r.value.holdings[ticker].quantity == HeldQuantity(a, ticker) + qty
                           && r.value.cash == a.cash - qty * price
                           && r.value.totalTrades == a.totalTrades + 1
                           && OtherHoldingsUnchanged(a.holdings, r.value.holdings, ticker)
                           && r.value == a.(holdings := r.value.holdings, cash := r.value.cash,
                                            totalTrades := r.value.totalTrades)
    ensures r.Success? && ticker !in a.holdings ==> r.value.holdings[ticker].price == price
    // a merged position's average is the weighted average: the cost basis is conserved
    ensures r.Success? && ticker in a.holdings ==>
              r.value.holdings[ticker].price * r.value.holdings[ticker].quantity
              == a.holdings[ticker].price * a.holdings[ticker].quantity + price * qty
    ensures r.Success? && ticker in a.holdings && a.holdings[ticker].quantity > 0.0 ==>
              Between(r.value.holdings[ticker].price, a.holdings[ticker].price, price)
  {
    if ticker in a.holdings && a.holdings[ticker].quantity + qty == 0.0 then
      Failure(ZeroPositionQuantity)
    else
      var p := if ticker in a.holdings then Merge(a.holdings[ticker], qty, price) else Position(qty, price);
      Success(a.(holdings := a.holdings[ticker := p],
                 cash := a.cash - qty * price,
                 totalTrades := a.totalTrades + 1))
  }

  /** Quantity actually sold: the request clamped to what is held. */
  function SoldQuantity(held: real, requested: real): (s: real)
    ensures s <= held && s <= requested
    ensures s == held || s == requested
  {
    if requested < held then requested else held
  }

  /** Classification of a sell at `price` against the average cost `avg`. */
  function Classify(price: real, avg: real): (v: Verdict)
    ensures v == Successful <==> price > avg
    ensures v == Neutral <==> price == avg
    ensures v == Failed <==> price < avg
  {
    if price > avg then Successful
    else if avg == price then Neutral
    else Failed
  }

  /** Points for a sell, tiered on r = price / avg and scaled by the time delta. */
  function SellPoints(price: real, avg: real, timeDelta: real): (pts: real)
    requires avg != 0.0
    ensures price > avg ==> pts == timeDelta || pts == 1.5 * timeDelta || pts == 2.0 * timeDelta
    ensures price <= avg ==> pts == -timeDelta || pts == -1.5 * timeDelta || pts == -2.0 * timeDelta
    ensures price == avg ==> pts == -timeDelta
    ensures timeDelta > 0.0 ==> (pts > 0.0 <==> price > avg)
    ensures avg > 0.0 && avg < price < 1.05 * avg ==> pts == timeDelta
    ensures avg > 0.0 && 1.05 * avg <= price < 1.1 * avg ==> pts == 1.5 * timeDelta
    ensures avg > 0.0 && 1.1 * avg <= price ==> pts == 2.0 * timeDelta
    ensures avg > 0.0 && 0.975 * avg < price <= avg ==> pts == -timeDelta
    ensures avg > 0.0 && 0.95 * avg < price <= 0.975 * avg ==> pts == -1.5 * timeDelta
    ensures avg > 0.0 && price <= 0.95 * avg ==> pts == -2.0 * timeDelta
  {
    var ratio := price / avg;
    assert avg > 0.0 ==> ((ratio < 1.05 <==> price < 1.05 * avg) && (ratio < 1.1 <==> price < 1.1 * avg)
                          && (ratio > 0.975 <==> price > 0.975 * avg) && (ratio > 0.95 <==> price > 0.95 * avg)) by {
      if avg > 0.0 {
        RatioBelow(price, avg, 1.05);
        RatioBelow(price, avg, 1.1);
        RatioBelow(price, avg, 0.975);
        RatioBelow(price, avg, 0.95);
      }
    }
    assert price == avg ==> ratio == 1.0 by {
      if price == avg {
        RatioBelow(price, avg, 1.0);
      }
    }
    if price > avg then
      if ratio < 1.05 then timeDelta * 1.0
      else if ratio < 1.1 then timeDelta * 1.5
      else timeDelta * 2.0
    else
      if ratio > 0.975 then -timeDelta * 1.0
      else if ratio > 0.95 then -timeDelta * 1.5
      else -timeDelta * 2.0
  }

  lemma RatioBelow(price: real, avg: real, c: real)
    requires avg != 0.0
    ensures avg > 0.0 ==> (price / avg < c <==> price < c * avg)
    ensures avg > 0.0 ==> (price / avg > c <==> price > c * avg)
    ensures price == avg ==> price / avg == 1.0
  {
    assert price == (price / avg) * avg;
  }

  /** A sell of a held position: clamp, classify, score, credit the cash,
      and delete the holding once it reaches exactly zero. */
  function ApplySell(a: Account, ticker: string, price: real, qty: real, timeDelta: real): (r: Result<Effect, TradeError>)
    requires SellAllowed(a, ticker)
    ensures r.Failure? <==> a.holdings[ticker].price == 0.0
    ensures r.Success? ==>
      var held := a.holdings[ticker];
      var sold := SoldQuantity(held.quantity, qty);
      var b := r.value.account;
      var v := Classify(price, held.price);
      && b.cash == a.cash + sold * price
      && b.totalTrades == a.totalTrades + 1
      && b.successfulTrades == a.successfulTrades + (if v == Successful then 1 else 0)
      && b.neutralTrades == a.neutralTrades + (if v == Neutral then 1 else 0)
      && b.failedTrades == a.failedTrades + (if v == Failed then 1 else 0)
      && (held.quantity == sold ==> ticker !in b.holdings)
      && (held.quantity != sold ==> ticker in b.holdings && b.holdings[ticker] == Position(held.quantity - sold, held.price))
      && OtherHoldingsUnchanged(a.holdings, b.holdings, ticker)
      && b.name == a.name && b.portfolioValue == a.portfolioValue
      && r.value.award == Some(SellPoints(price, held.price, timeDelta))
  {
    var held := a.holdings[ticker];
    if held.price == 0.0 then Failure(ZeroAveragePrice)
    else
      var sold := SoldQuantity(held.quantity, qty);
      var remaining := held.quantity - sold;
      var v := Classify(price, held.price);
      var holdings := if remaining == 0.0 then a.holdings - {ticker}
                      else a.holdings[ticker := Position(remaining, held.price)];
      Success(Effect(
        a.(holdings := holdings,
           cash := a.cash + sold * price,
           totalTrades := a.totalTrades + 1,
           successfulTrades := a.successfulTrades + (if v == Successful then 1 else 0),
           neutralTrades := a.neutralTrades + (if v == Neutral then 1 else 0),
           failedTrades := a.failedTrades + (if v == Failed then 1 else 0)),
        Some(SellPoints(price, held.price, timeDelta))))
  }

  /**
   * One simulated trade. `action` and `qty` are what the strategy decided;
   * only the labels "buy" and "sell" act, any other label is a hold.
   */
  function Trade(a: Account, ticker: string, price: real, action: string, qty: real, timeDelta: real): (r: Result<Effect, TradeError>)
    // nothing changes unless the guarded buy or the guarded sell runs
    ensures r.Success? && r.value != Effect(a, None) ==>
              (action == "buy" && BuyAllowed(a, ticker, price, qty)) || (action == "sell" && SellAllowed(a, ticker))
    ensures action == "buy" && !BuyAllowed(a, ticker, price, qty) && r.Success? ==> r.value == Effect(a, None)
    ensures action == "buy" && r.Failure? ==>
              r.error == ZeroPortfolioValue || r.error == ZeroPositionQuantity
    ensures action == "buy" && BuyAllowed(a, ticker, price, qty) ==>
              r == (match ApplyBuy(a, ticker, price, qty)
                    case Success(b) => Success(Effect(b, None))
                    case Failure(e) => Failure(e))
    ensures action == "sell" && SellAllowed(a, ticker) ==> r == ApplySell(a, ticker, price, qty, timeDelta)
    ensures action == "sell" && !SellAllowed(a, ticker) ==> r == Success(Effect(a, None))
    ensures action != "buy" && action != "sell" ==> r == Success(Effect(a, None))
    // the only division by the portfolio value follows the buy's cash and quantity guards
    ensures r == Failure(ZeroPortfolioValue) <==>
              action == "buy" && a.cash - qty * price > ReserveFloor && qty > 0.0 && a.portfolioValue == 0.0
    ensures action == "buy" && !(a.cash - qty * price > ReserveFloor && qty > 0.0) ==>
              r == Success(Effect(a, None))
    // the points tally moves only on a sell
    ensures r.Success? && r.value.award.Some? ==> action == "sell"
    // no other ticker, and neither name nor portfolio value, is touched
    ensures r.Success? ==> && OtherHoldingsUnchanged(a.holdings, r.value.account.holdings, ticker)
                           && r.value.account.name == a.name
                           && r.value.account.portfolioValue == a.portfolioValue
    // the ledger invariant is kept at positive prices and rules out every failure
    ensures Sound(a) && price > 0.0 && r.Success? ==> Sound(r.value.account)
    ensures Sound(a) && a.portfolioValue != 0.0 ==> r.Success?
  {
    if action == "buy" && a.cash - qty * price > ReserveFloor && qty > 0.0 then
      if a.portfolioValue == 0.0 then Failure(ZeroPortfolioValue)
      else if (HeldQuantity(a, ticker) + qty) * price / a.portfolioValue < ConcentrationCap then
        match ApplyBuy(a, ticker, price, qty)
        case Success(b) => Success(Effect(b, None))
        case Failure(e) => Failure(e)
      else Success(Effect(a, None))
    else if action == "sell" && SellAllowed(a, ticker) then
      ApplySell(a, ticker, price, qty, timeDelta)
    else
      Success(Effect(a, None))
  }

  /** A buy signal for one ticker: quantity and price. */
  datatype Fill = Fill(qty: real, price: real)

  /** The account after the strategy signals "buy" on `ticker` for each fill in turn
      (a refused or failed buy leaves the account as it was). */
  function ReplayBuys(a: Account, ticker: string, fills: seq<Fill>, timeDelta: real): Account
    decreases |fills|
  {
    if |fills| == 0 then a
    else
      var next := match Trade(a, ticker, fills[0].price, "buy", fills[0].qty, timeDelta)
                  case Success(e) => e.account
                  case Failure(_) => a;
      ReplayBuys(next, ticker, fills[1..], timeDelta)
  }

  /** After any run of buys, the average cost lies within the range of the buy prices. */
  lemma {:induction false} AverageCostWithinBuyPrices(a: Account, ticker: string, fills: seq<Fill>, timeDelta: real, lo: real, hi: real)
    requires Sound(a) && 0.0 < lo
    requires ticker in a.holdings ==> lo <= a.holdings[ticker].price <= hi
    requires forall k | 0 <= k < |fills| :: lo <= fills[k].price <= hi
    ensures Sound(ReplayBuys(a, ticker, fills, timeDelta))
    ensures ticker in ReplayBuys(a, ticker, fills, timeDelta).holdings ==>
              lo <= ReplayBuys(a, ticker, fills, timeDelta).holdings[ticker].price <= hi
    decreases |fills|
  {
    if |fills| > 0 {
      var f := fills[0];
      var r := Trade(a, ticker, f.price, "buy", f.qty, timeDelta);
      var next := match r case Success(e) => e.account case Failure(_) => a;
      if r.Success? && r.value != Effect(a, None) {
        assert BuyAllowed(a, ticker, f.price, f.qty);
        var b := ApplyBuy(a, ticker, f.price, f.qty);
        assert b.Success? && next == b.value;
        assert lo <= next.holdings[ticker].price <= hi;
      }
      assert forall k | 0 <= k < |fills[1..]| :: fills[1..][k] == fills[k + 1];
      AverageCostWithinBuyPrices(next, ticker, fills[1..], timeDelta, lo, hi);
    }
  }

  /** A trade exchanges cash for position at the trade price: cash plus the held
      quantity valued at that price is conserved. */
  lemma TradeConservesMarkValue(a: Account, ticker: string, price: real, action: string, qty: real, timeDelta: real,
                                b: Account)
    requires Trade(a, ticker, price, action, qty, timeDelta).Success?
    requires b == Trade(a, ticker, price, action, qty, timeDelta).value.account
    ensures b.cash + HeldQuantity(b, ticker) * price == a.cash + HeldQuantity(a, ticker) * price
  {
    if action == "buy" && BuyAllowed(a, ticker, price, qty) {
      BuyConservesMarkValue(a, ticker, price, qty);
    } else if action == "sell" && SellAllowed(a, ticker) {
      SellConservesMarkValue(a, ticker, price, qty, timeDelta);
    }
  }

  /** The buy half of `TradeConservesMarkValue`. */
  lemma BuyConservesMarkValue(a: Account, ticker: string, price: real, qty: real)
    requires qty > 0.0 && ApplyBuy(a, ticker, price, qty).Success?
    ensures var b := ApplyBuy(a, ticker, price, qty).value;
            b.cash + HeldQuantity(b, ticker) * price == a.cash + HeldQuantity(a, ticker) * price
  {
    var b := ApplyBuy(a, ticker, price, qty).value;
    var held := HeldQuantity(a, ticker);
    assert HeldQuantity(b, ticker) == held + qty;
    assert b.cash == a.cash - qty * price;
    assert (held + qty) * price == held * price + qty * price;
  }

  /** The sell half of `TradeConservesMarkValue`. */
  lemma SellConservesMarkValue(a: Account, ticker: string, price: real, qty: real, timeDelta: real)
    requires SellAllowed(a, ticker) && ApplySell(a, ticker, price, qty, timeDelta).Success?
    ensures var b := ApplySell(a, ticker, price, qty, timeDelta).value.account;
            b.cash + HeldQuantity(b, ticker) * price == a.cash + HeldQuantity(a, ticker) * price
  {
    var b := ApplySell(a, ticker, price, qty, timeDelta).value.account;
    var held := a.holdings[ticker].quantity;
    var sold := SoldQuantity(held, qty);
    assert b.cash == a.cash + sold * price;
    assert HeldQuantity(b, ticker) == held - sold;
    assert (held - sold) * price == held * price - sold * price;
  }
}

=== FILE: livebook.dfy ===
/**
 * The live account's bookkeeping in `place_order`: after the broker accepted a
 * market order, the tracked quantity of the symbol is adjusted by the rounded
 * order quantity, a buy (re)sets the stop-loss and take-profit limits at 3% below
 * and 5% above the current price, and a sell that brings the tracked quantity to
 * exactly zero deletes both the quantity and the limits of the symbol.
 */
module LiveBook {
  import opened Wrappers

  /** Stop-loss and take-profit prices of one symbol. */
  datatype Limit = Limit(stopLoss: real, takeProfit: real)

  /** Tracked live quantities and limits, keyed by symbol. */
  datatype Book = Book(assets: map<string, real>, limits: map<string, Limit>)

  datatype OrderSide = BuyOrder | SellOrder

  /** The latest price could not be read, so the bookkeeping after the order fails. */
  datatype OrderError = PriceUnavailable

  /** Nearest integer to `v`, ties to the even neighbour (Python's rounding rule). */
  function RoundHalfEven(v: real): (k: int)
    ensures v - 0.5 <= k as real <= v + 0.5
    // of two equally near integers, the even one
    ensures (k as real == v - 0.5 || k as real == v + 0.5) ==> k % 2 == 0
  {
    var f := v.Floor;
    var frac := v - f as real;
    if frac < 0.5 then f
    else if frac > 0.5 then f + 1
    else if f % 2 == 0 then f
    else f + 1
  }

  lemma {:induction false} RoundHalfEvenMonotone(v: real, w: real)
    requires v <= w
    ensures RoundHalfEven(v) <= RoundHalfEven(w)
  {
    assert v.Floor <= w.Floor;
  }

  /** `round(x, 2)`: to cents. */
  function Round2(x: real): (r: real)
    ensures x - 0.005 <= r <= x + 0.005
  {
    RoundHalfEven(x * 100.0) as real / 100.0
  }

  /** `round(x, 3)`: to thousandths. */
  function Round3(x: real): (r: real)
    ensures x - 0.0005 <= r <= x + 0.0005
  {
    RoundHalfEven(x * 1000.0) as real / 1000.0
  }

  /** Rounding to cents never reverses the order of two values. */
  lemma Round2Monotone(x: real, y: real)
    requires x <= y
    ensures Round2(x) <= Round2(y)
  {
    var a := x * 100.0;
    var b := y * 100.0;
    assert a <= b;
    RoundHalfEvenMonotone(a, b);
    assert RoundHalfEven(a) as real <= RoundHalfEven(b) as real;
  }

  /** Limits set by a buy at `price`. */
  function BuyLimits(price: real): (l: Limit)
    ensures price >= 0.0 ==> l.stopLoss <= l.takeProfit
    ensures l.stopLoss - 0.005 <= price * 0.97 <= l.stopLoss + 0.005
    ensures l.takeProfit - 0.005 <= price * 1.05 <= l.takeProfit + 0.005
  {
    assert price >= 0.0 ==> Round2(price * 0.97) <= Round2(price * 1.05) by {
      if price >= 0.0 {
        Round2Monotone(price * 0.97, price * 1.05);
      }
    }
    Limit(Round2(price * 0.97), Round2(price * 1.05))
  }

  /** The bookkeeping of one accepted market order; `price` is the latest price read
      afterwards (`None` when it could not be read). */
  function PlaceOrder(book: Book, symbol: string, side: OrderSide, quantity: real, price: Option<real>): (r: Result<Book, OrderError>)
    ensures r.Failure? <==> price.None?
    // keyed by symbol: nothing about any other symbol changes
    ensures r.Success? ==> forall s | s != symbol ::
              && (s in r.value.assets <==> s in book.assets) && (s in book.assets ==> r.value.assets[s] == book.assets[s])
              && (s in r.value.limits <==> s in book.limits) && (s in book.limits ==> r.value.limits[s] == book.limits[s])
    ensures r.Success? && side == BuyOrder ==>
              && symbol in r.value.assets
              && r.value.assets[symbol] == Lookup(book.assets, symbol).GetOr(0.0) + Round3(quantity)
              && symbol in r.value.limits
              && r.value.limits[symbol] == BuyLimits(price.value)
    ensures r.Success? && side == SellOrder ==>
              var left := Lookup(book.assets, symbol).GetOr(0.0) - Round3(quantity);
              && (left == 0.0 ==> symbol !in r.value.assets && symbol !in r.value.limits)
              && (left != 0.0 ==> symbol in r.value.assets && r.value.assets[symbol] == left
                                  && r.value.limits == book.limits)
  {
    match price
    case None => Failure(PriceUnavailable)
    case Some(p) =>
      var qty := Round3(quantity);
      var held := Lookup(book.assets, symbol).GetOr(0.0);
      match side
      case BuyOrder =>
        Success(Book(book.assets[symbol := held + qty], book.limits[symbol := BuyLimits(p)]))
      case SellOrder =>
        if held - qty == 0.0 then Success(Book(book.assets - {symbol}, book.limits - {symbol}))
        else Success(Book(book.assets[symbol := held - qty], book.limits))
  }

  /** Selling exactly the tracked quantity (as the stop-loss path does, when that
      quantity has at most three decimals) clears the symbol from the book. */
  lemma SellAllClearsSymbol(book: Book, symbol: string, price: real)
    requires symbol in book.assets
    requires Round3(book.assets[symbol]) == book.assets[symbol]
    ensures var r := PlaceOrder(book, symbol, SellOrder, book.assets[symbol], Some(price));
            r.Success? && symbol !in r.value.assets && symbol !in r.value.limits
  {
  }

  /** Selling what was just bought puts the tracked quantities back as they were
      (a symbol tracked at exactly zero is the exception: the sell deletes it). */
  lemma BuyThenSellRestoresAssets(book: Book, symbol: string, quantity: real, buyPrice: real, sellPrice: real)
    requires symbol in book.assets ==> book.assets[symbol] != 0.0
    ensures var bought := PlaceOrder(book, symbol, BuyOrder, quantity, Some(buyPrice));
            && bought.Success?
            && var sold := PlaceOrder(bought.value, symbol, SellOrder, quantity, Some(sellPrice));
            && sold.Success?
            && sold.value.assets == book.assets
  {
    var bought := PlaceOrder(book, symbol, BuyOrder, quantity, Some(buyPrice)).value;
    var sold := PlaceOrder(bought, symbol, SellOrder, quantity, Some(sellPrice)).value;
    var held := Lookup(book.assets, symbol).GetOr(0.0);
    assert bought.assets[symbol] == held + Round3(quantity);
    if symbol in book.assets {
      assert sold.assets[symbol] == book.assets[symbol];
    } else {
      assert symbol !in sold.assets;
    }
    assert sold.assets.Keys == book.assets.Keys;
  }
}

=== FILE: ordering.dfy ===
/**
 * Orders and sorting. Python compares strings lexicographically by code point and
 * tuples field by field; `heapq` pops the smallest element first. The model makes
 * each of these orders explicit and represents a heap by the sequence in which it
 * would be popped: pushing is an ordered insertion, popping takes the head.
 */
module Ordering {

  /** Python's `a <= b` on `str`: lexicographic by code point, a prefix comes first. */
  predicate StrLe(a: string, b: string)
    decreases |a|
  {
    |a| == 0 || (|b| > 0 && (if a[0] == b[0] then StrLe(a[1..], b[1..]) else a[0] < b[0]))
  }

  lemma {:induction false} StrLeTotal(a: string, b: string)
    ensures StrLe(a, b) || StrLe(b, a)
    decreases |a|
  {
    if |a| > 0 && |b| > 0 && a[0] == b[0] {
      StrLeTotal(a[1..], b[1..]);
    }
  }

  lemma {:induction false} StrLeAntisymmetric(a: string, b: string)
    requires StrLe(a, b) && StrLe(b, a)
    ensures a == b
    decreases |a|
  {
    if |a| > 0 {
      StrLeAntisymmetric(a[1..], b[1..]);
      assert a == [a[0]] + a[1..];
      assert b == [b[0]] + b[1..];
    }
  }

  lemma {:induction false} StrLeTransitive(a: string, b: string, c: string)
    requires StrLe(a, b) && StrLe(b, c)
    ensures StrLe(a, c)
    decreases |a|
  {
    if |a| > 0 && a[0] == b[0] && b[0] == c[0] {
      StrLeTransitive(a[1..], b[1..], c[1..]);
    }
  }

  /** `le` is a total order: total, antisymmetric and transitive. */
  ghost predicate TotalOrder<T(!new)>(le: (T, T) -> bool)
  {
    && (forall x, y :: le(x, y) || le(y, x))
    && (forall x, y :: le(x, y) && le(y, x) ==> x == y)
    && (forall x, y, z :: le(x, y) && le(y, z) ==> le(x, z))
  }

  predicate SortedBy<T>(le: (T, T) -> bool, s: seq<T>)
  {
    forall i, j | 0 <= i < j < |s| :: le(s[i], s[j])
  }

  /** Pushes `x` onto the heap `s`, which is kept in pop order. */
  function Insert<T>(le: (T, T) -> bool, x: T, s: seq<T>): (r: seq<T>)
    ensures |r| == |s| + 1
    ensures multiset(r) == multiset(s) + multiset{x}
  {
    if |s| == 0 then [x]
    else if le(x, s[0]) then [x] + s
    else
      assert s == [s[0]] + s[1..];
      [s[0]] + Insert(le, x, s[1..])
  }

  /** The pop order of a heap into which the elements of `s` were pushed in turn. */
  function Sort<T>(le: (T, T) -> bool, s: seq<T>): (r: seq<T>)
    ensures |r| == |s|
    ensures multiset(r) == multiset(s)
  {
    if |s| == 0 then []
    else
      assert s == s[..|s| - 1] + [s[|s| - 1]];
      Insert(le, s[|s| - 1], Sort(le, s[..|s| - 1]))
  }

  lemma {:induction false} InsertSorted<T(!new)>(le: (T, T) -> bool, x: T, s: seq<T>)
    requires TotalOrder(le)
    requires SortedBy(le, s)
    ensures SortedBy(le, Insert(le, x, s))
  {
    if |s| > 0 && !le(x, s[0]) {
      var rest := Insert(le, x, s[1..]);
      InsertSorted(le, x, s[1..]);
      assert le(s[0], x);
      forall k | 0 <= k < |rest|
        ensures le(s[0], rest[k])
      {
        assert rest[k] in multiset(rest);
        if rest[k] != x {
          assert rest[k] in multiset(s[1..]);
          var j :| 0 <= j < |s[1..]| && s[1..][j] == rest[k];
          assert s[1..][j] == s[j + 1];
        }
      }
    }
  }

  lemma {:induction false} SortSorted<T(!new)>(le: (T, T) -> bool, s: seq<T>)
    requires TotalOrder(le)
    ensures SortedBy(le, Sort(le, s))
  {
    if |s| > 0 {
      SortSorted(le, s[..|s| - 1]);
      InsertSorted(le, s[|s| - 1], Sort(le, s[..|s| - 1]));
    }
  }

  /** Two sorted arrangements of one non-empty multiset start with the same element. */
  lemma SortedSameHead<T(!new)>(le: (T, T) -> bool, a: seq<T>, b: seq<T>)
    requires TotalOrder(le)
    requires SortedBy(le, a) && SortedBy(le, b)
    requires |a| > 0 && multiset(a) == multiset(b)
    ensures |b| > 0 && a[0] == b[0]
  {
    assert a[0] in multiset(b);
    assert b[0] in multiset(a);
    SortedHeadIsLeast(le, b, a[0]);
    SortedHeadIsLeast(le, a, b[0]);
  }

  /** Under a total order there is only one sorted arrangement of a multiset. */
  lemma {:induction false} SortedUnique<T(!new)>(le: (T, T) -> bool, a: seq<T>, b: seq<T>)
    requires TotalOrder(le)
    requires SortedBy(le, a) && SortedBy(le, b)
    requires multiset(a) == multiset(b)
    ensures a == b
    decreases |a|
  {
    assert |a| == |multiset(a)| == |b|;
    if |a| > 0 {
      SortedSameHead(le, a, b);
      TailMultiset(a);
      TailMultiset(b);
      SortedUnique(le, a[1..], b[1..]);
      assert a == [a[0]] + a[1..];
      assert b == [b[0]] + b[1..];
    }
  }

  lemma TailMultiset<T>(s: seq<T>)
    requires |s| > 0
    ensures multiset(s[1..]) == multiset(s) - multiset{s[0]}
  {
    assert s == [s[0]] + s[1..];
  }

  /** The pop order of a heap depends only on what was pushed, not on the push order. */
  lemma SortPermutationInvariant<T(!new)>(le: (T, T) -> bool, a: seq<T>, b: seq<T>)
    requires TotalOrder(le)
    requires multiset(a) == multiset(b)
    ensures Sort(le, a) == Sort(le, b)
  {
    SortSorted(le, a);
    SortSorted(le, b);
    SortedUnique(le, Sort(le, a), Sort(le, b));
  }

  /** Every element of a sorted sequence is bounded below by its head. */
  lemma SortedHeadIsLeast<T(!new)>(le: (T, T) -> bool, s: seq<T>, x: T)
    requires TotalOrder(le)
    requires SortedBy(le, s)
    requires x in s
    ensures le(s[0], x)
  {
    var k :| 0 <= k < |s| && s[k] == x;
    if k > 0 {
      assert le(s[0], s[k]);
    }
  }

  function RealLe(x: real, y: real): bool
  {
    x <= y
  }

  lemma RealLeTotalOrder()
    ensures TotalOrder(RealLe)
  {
  }
}

=== FILE: policy.dfy ===
/** Risk constants shared by the simulated ledger and the live gate. */
module Policy {
  /** Cash that must remain (simulation) or be present (live) before a buy. */
  const ReserveFloor: real := 15000.0
  /** Largest fraction of the portfolio value one position may reach. */
  const ConcentrationCap: real := 0.10
}

=== FILE: ranking.dfy ===
/**
 * The ranking epoch (`update_ranks`). Every non-reserved strategy document is
 * pushed onto a min-heap under the tuple
 *   (primary, successful - failed, cash, name)
 * where primary is 2 * points + portfolio value for a strategy with positive
 * points and the portfolio value otherwise. The heap is popped to empty and the
 * k-th popped strategy gets rank k, so rank 1 goes to the SMALLEST tuple. All
 * prior ranks are deleted before anything else happens.
 */
module Ranking {
  import opened Wrappers
  import opened Ordering
  import opened Sequences
  import opened Ledger

  /** The heap entry of one strategy, compared as a Python tuple. */
  datatype Key = Key(primary: real, net: int, cash: real, name: string)

  /** One document of the rank collection. */
  datatype RankRecord = RankRecord(name: string, rank: nat)

  /** A non-reserved strategy has no points document: the lookup fails. */
  datatype RankError = MissingPoints

  /** Test fixtures that are never ranked. */
  predicate Reserved(name: string)
  {
    name == "test" || name == "test_strategy"
  }

  function KeyOf(a: Account, points: real): (k: Key)
    ensures k.name == a.name && k.cash == a.cash
    ensures k.net == a.successfulTrades - a.failedTrades
    ensures points > 0.0 ==> k.primary == a.portfolioValue + 2.0 * points
    ensures points <= 0.0 ==> k.primary == a.portfolioValue
  {
    Key(if points > 0.0 then points * 2.0 + a.portfolioValue else a.portfolioValue,
        a.successfulTrades - a.failedTrades,
        a.cash,
        a.name)
  }

  /** Python's `<=` on the key tuples: field by field. */
  function KeyLe(x: Key, y: Key): bool
  {
    || x.primary < y.primary
    || (x.primary == y.primary && x.net < y.net)
    || (x.primary == y.primary && x.net == y.net && x.cash < y.cash)
    || (x.primary == y.primary && x.net == y.net && x.cash == y.cash && StrLe(x.name, y.name))
  }

  lemma KeyLeTotalOrder()
    ensures TotalOrder(KeyLe)
  {
    forall x: Key, y: Key
      ensures KeyLe(x, y) || KeyLe(y, x)
    {
      StrLeTotal(x.name, y.name);
    }
    forall x: Key, y: Key | KeyLe(x, y) && KeyLe(y, x)
      ensures x == y
    {
      if x.primary == y.primary && x.net == y.net && x.cash == y.cash {
        StrLeAntisymmetric(x.name, y.name);
      }
    }
    forall x: Key, y: Key, z: Key | KeyLe(x, y) && KeyLe(y, z)
      ensures KeyLe(x, z)
    {
      if x.primary == y.primary == z.primary && x.net == y.net == z.net && x.cash == y.cash == z.cash {
        StrLeTransitive(x.name, y.name, z.name);
      }
    }
  }

  /** Every non-reserved strategy has a points document. */
  ghost predicate AllScored(docs: seq<Account>, points: map<string, real>)
  {
    forall d | d in docs :: !Reserved(d.name) ==> d.name in points
  }

  /** The heap entry a document contributes, if any. */
  function Entry(points: map<string, real>): Account -> Option<Key>
  {
    (d: Account) => if Reserved(d.name) || d.name !in points then None else Some(KeyOf(d, points[d.name]))
  }

  /** The entries pushed, in document order. */
  function Pushed(docs: seq<Account>, points: map<string, real>): seq<Key>
  {
    FilterMap(Entry(points), docs)
  }

  /** The names of the non-reserved documents. */
  function EligibleNames(docs: seq<Account>): seq<string>
  {
    FilterMap((d: Account) => if Reserved(d.name) then None else Some(d.name), docs)
  }

  /** The pop order of the heap. */
  function Standings(docs: seq<Account>, points: map<string, real>): (s: seq<Key>)
    ensures SortedBy(KeyLe, s)
    ensures multiset(s) == multiset(Pushed(docs, points))
  {
    KeyLeTotalOrder();
    SortSorted(KeyLe, Pushed(docs, points));
    Sort(KeyLe, Pushed(docs, points))
  }

  /** One ranking epoch: the rank collection it leaves behind, or the failure. */
  function Epoch(docs: seq<Account>, points: map<string, real>): (r: Result<seq<RankRecord>, RankError>)
    ensures r.Failure? <==> !AllScored(docs, points)
    ensures r.Success? ==>
              var s := Standings(docs, points);
              |r.value| == |s| && forall i | 0 <= i < |s| :: r.value[i] == RankRecord(s[i].name, i + 1)
  {
    if exists d | d in docs :: !Reserved(d.name) && d.name !in points then
      Failure(MissingPoints)
    else
      var s := Standings(docs, points);
      Success(seq(|s|, i requires 0 <= i < |s| => RankRecord(s[i].name, i + 1)))
  }

  /** The rank collection after `update_ranks`: prior ranks are deleted first, so a
      failed epoch leaves it empty. */
  function RankTable(docs: seq<Account>, points: map<string, real>): (t: seq<RankRecord>)
    ensures !AllScored(docs, points) ==> t == []
    ensures AllScored(docs, points) ==> t == Epoch(docs, points).value
  {
    match Epoch(docs, points)
    case Success(ranks) => ranks
    case Failure(_) => []
  }

  function Names(s: seq<Key>): seq<string>
  {
    FilterMap((k: Key) => Some(k.name), s)
  }

  lemma {:induction false} NamesIndexwise(s: seq<Key>)
    ensures |Names(s)| == |s|
    ensures forall i | 0 <= i < |s| :: Names(s)[i] == s[i].name
    decreases |s|
  {
    if |s| > 0 {
      NamesIndexwise(s[1..]);
    }
  }

  lemma {:induction false} PushedNames(docs: seq<Account>, points: map<string, real>)
    requires AllScored(docs, points)
    ensures Names(Pushed(docs, points)) == EligibleNames(docs)
    decreases |docs|
  {
    if |docs| > 0 {
      PushedNames(docs[1..], points);
      FilterMapConcat((k: Key) => Some(k.name), Pushed(docs[..1], points), Pushed(docs[1..], points));
    }
  }

  /** The set of ranks handed out. */
  function RankSet(ranks: seq<RankRecord>): set<int>
  {
    set r | r in ranks :: r.rank as int
  }

  /** The ranks of an epoch are exactly 1..N with no rank handed out twice. */
  lemma RanksAreOneToN(docs: seq<Account>, points: map<string, real>)
    requires AllScored(docs, points)
    ensures var ranks := Epoch(docs, points).value;
            && |ranks| == |EligibleNames(docs)|
            && (forall k: int :: k in RankSet(ranks) <==> 1 <= k <= |ranks|)
            && (forall i, j | 0 <= i < j < |ranks| :: ranks[i].rank != ranks[j].rank)
  {
    var ranks := Epoch(docs, points).value;
    var s := Standings(docs, points);
    forall k: int | 1 <= k <= |ranks|
      ensures k in RankSet(ranks)
    {
      assert ranks[k - 1] in ranks;
    }
    NamesIndexwise(s);
    NamesIndexwise(Pushed(docs, points));
    PushedNames(docs, points);
    assert |s| == |multiset(s)| == |Pushed(docs, points)|;
  }

  /** The ranked names are the non-reserved document names, with their multiplicities. */
  lemma RankedAreTheEligible(docs: seq<Account>, points: map<string, real>)
    requires AllScored(docs, points)
    ensures var ranks := Epoch(docs, points).value;
            multiset(seq(|ranks|, i requires 0 <= i < |ranks| => ranks[i].name)) == multiset(EligibleNames(docs))
  {
    var ranks := Epoch(docs, points).value;
    var s := Standings(docs, points);
    NamesIndexwise(s);
    assert seq(|ranks|, i requires 0 <= i < |ranks| => ranks[i].name) == Names(s);
    FilterMapPermutation((k: Key) => Some(k.name), s, Pushed(docs, points));
    PushedNames(docs, points);
  }

  /** A reserved strategy is never ranked. */
  lemma ReservedNeverRanked(docs: seq<Account>, points: map<string, real>)
    requires AllScored(docs, points)
    ensures forall r | r in Epoch(docs, points).value :: !Reserved(r.name)
  {
    var ranks := Epoch(docs, points).value;
    var s := Standings(docs, points);
    FilterMapMembers(Entry(points), docs);
    forall r | r in ranks
      ensures !Reserved(r.name)
    {
      var i :| 0 <= i < |ranks| && ranks[i] == r;
      assert s[i] in multiset(Pushed(docs, points));
      assert s[i] in Pushed(docs, points);
      var j :| 0 <= j < |docs| && Entry(points)(docs[j]) == Some(s[i]);
      assert s[i].name == docs[j].name;
    }
  }

  /** Rank order follows the key order, and rank 1 holds the smallest key of all
      non-reserved strategies. */
  lemma RankOneIsSmallestKey(docs: seq<Account>, points: map<string, real>, d: Account)
    requires AllScored(docs, points)
    requires d in docs && !Reserved(d.name)
    ensures |Epoch(docs, points).value| > 0
    ensures var s := Standings(docs, points);
            Epoch(docs, points).value[0].name == s[0].name && KeyLe(s[0], KeyOf(d, points[d.name]))
  {
    var i :| 0 <= i < |docs| && docs[i] == d;
    FilterMapMembers(Entry(points), docs);
    var k := KeyOf(d, points[d.name]);
    assert Entry(points)(docs[i]) == Some(k);
    assert k in multiset(Standings(docs, points));
    KeyLeTotalOrder();
    SortedHeadIsLeast(KeyLe, Standings(docs, points), k);
  }

  /** The epoch does not depend on the order in which the store returns documents:
      rerunning it on the same documents reproduces the same rank assignment. */
  lemma EpochIgnoresDocumentOrder(docs: seq<Account>, docs': seq<Account>, points: map<string, real>)
    requires multiset(docs) == multiset(docs')
    ensures Epoch(docs, points) == Epoch(docs', points)
  {
    assert AllScored(docs, points) <==> AllScored(docs', points) by {
      forall d | d in docs ensures d in docs' { assert d in multiset(docs'); }
      forall d | d in docs' ensures d in docs { assert d in multiset(docs); }
    }
    if AllScored(docs, points) {
      FilterMapPermutation(Entry(points), docs, docs');
      KeyLeTotalOrder();
      SortPermutationInvariant(KeyLe, Pushed(docs, points), Pushed(docs', points));
    }
  }
}

=== FILE: scenarios.dfy ===
/** Worked examples of the ledger and the fuser on concrete numbers. */
module Scenarios {
  import opened Wrappers
  import opened Ledger
  import opened Fuser

  const Pair: string := "BTC/USD"

  /** An empty ledger buys 50 units at 100 against a portfolio of 500000: the
      position is 1% of the portfolio and 45000 cash stays above the reserve. */
  lemma FirstBuyOpensPosition(timeDelta: real)
    ensures var a := Account("momentum", 50000.0, 500000.0, map[], 0, 0, 0, 0);
            var r := Trade(a, Pair, 100.0, "buy", 50.0, timeDelta);
            && r.Success?
            && r.value.account.holdings == map[Pair := Position(50.0, 100.0)]
            && r.value.account.cash == 45000.0
            && r.value.account.totalTrades == 1
            && r.value.award.None?
  {
    var a := Account("momentum", 50000.0, 500000.0, map[], 0, 0, 0, 0);
    assert BuyAllowed(a, Pair, 100.0, 50.0);
  }

  /** Selling 20 of 50 units bought at 100 for 110 (a ratio of exactly 1.10) lands
      in the top tier: twice the time delta, one successful trade, 2200 cash. */
  lemma ProfitableSellTopTier(timeDelta: real)
    ensures var a := Account("momentum", 45000.0, 500000.0, map[Pair := Position(50.0, 100.0)], 1, 0, 0, 0);
            var r := Trade(a, Pair, 110.0, "sell", 20.0, timeDelta);
            && r.Success?
            && r.value.account.holdings == map[Pair := Position(30.0, 100.0)]
            && r.value.account.cash == 47200.0
            && r.value.account.successfulTrades == 1
            && r.value.award == Some(2.0 * timeDelta)
  {
    var a := Account("momentum", 45000.0, 500000.0, map[Pair := Position(50.0, 100.0)], 1, 0, 0, 0);
    assert SellAllowed(a, Pair);
  }

  /** A neutral sell (price equal to the average cost) costs one time delta. */
  lemma NeutralSellCostsPoints(timeDelta: real)
    ensures var a := Account("momentum", 45000.0, 500000.0, map[Pair := Position(50.0, 100.0)], 1, 0, 0, 0);
            var r := Trade(a, Pair, 100.0, "sell", 50.0, timeDelta);
            && r.Success?
            && Pair !in r.value.account.holdings
            && r.value.account.neutralTrades == 1
            && r.value.award == Some(-timeDelta)
  {
    var a := Account("momentum", 45000.0, 500000.0, map[Pair := Position(50.0, 100.0)], 1, 0, 0, 0);
    assert SellAllowed(a, Pair);
  }

  /** Votes (buy, 10, 5), (sell, 5, 3), (hold, 0, 1): buy wins 5 to 3 and 1, and the
      quantity is the median of the lone buy quantity. */
  method ThreeVotes() returns (r: Fused)
    ensures r.action == Buy && r.quantity == 10.0
    ensures r.buyWeight == 5.0 && r.sellWeight == 3.0 && r.holdWeight == 1.0
  {
    var votes := [Vote("buy", 10.0, 5.0), Vote("sell", 5.0, 3.0), Vote("hold", 0.0, 1.0)];
    var one, two := votes[..1], votes[..2];
    assert two[..1] == one && votes[..2] == two && one[..0] == [];
    assert BucketOf("buy") == Some(BuyBucket) && BucketOf("sell") == Some(SellBucket) && BucketOf("hold") == Some(HoldBucket);
    assert one[|one| - 1] == votes[0] && two[|two| - 1] == votes[1] && votes[|votes| - 1] == votes[2];
    assert Weight(one[..0], BuyBucket) == 0.0 && Weight(one[..0], SellBucket) == 0.0 && Weight(one[..0], HoldBucket) == 0.0;
    assert Weight(one, BuyBucket) == 5.0;
    assert Weight(one, SellBucket) == 0.0;
    assert Weight(one, HoldBucket) == 0.0;
    assert Weight(two, BuyBucket) == 5.0;
    assert Weight(two, SellBucket) == 3.0;
    assert Weight(two, HoldBucket) == 0.0;
    assert Weight(votes, BuyBucket) == 5.0;
    assert Weight(votes, SellBucket) == 3.0;
    assert Weight(votes, HoldBucket) == 1.0;
    assert Quantities(one, BuyBucket) == [10.0];
    assert Quantities(two, BuyBucket) == [10.0];
    assert Quantities(votes, BuyBucket) == [10.0];
    r := Fuse(votes);
    MedianOfSorted([10.0]);
  }
}

=== FILE: selectors.dfy ===
/**
 * Two small selectors of the broker helper: the market-status classification of
 * one status poll, and the choice of a history period from per-period scores.
 */
module Selectors {
  import opened Wrappers

  datatype MarketStatus = Open | EarlyHours | Closed | Error

  /** The fields of one market-status poll that the classification reads. */
  datatype StatusReport = StatusReport(nasdaq: string, nyse: string, earlyHours: bool)

  /** `market_status`; `poll` is `None` when the status request raised. */
  function StatusOf(poll: Option<StatusReport>): (s: MarketStatus)
    ensures s == Error <==> poll.None?
    ensures s == Open <==> poll.Some? && poll.value.nasdaq == "open" && poll.value.nyse == "open"
    ensures s == EarlyHours <==>
              poll.Some? && !(poll.value.nasdaq == "open" && poll.value.nyse == "open") && poll.value.earlyHours
    ensures s == Closed <==>
              poll.Some? && !(poll.value.nasdaq == "open" && poll.value.nyse == "open") && !poll.value.earlyHours
  {
    match poll
    case None => Error
    case Some(report) =>
      if report.nasdaq == "open" && report.nyse == "open" then Open
      else if report.earlyHours then EarlyHours
      else Closed
  }

  /** The candidate bar periods, in the order they are tried. */
  const Periods: seq<string> := ["1Min", "5Min", "15Min", "1H", "1D"]

  /** The period used when no period could be scored. */
  const DefaultPeriod: string := "1D"

  /** What probing one period yields: a score, no bars, or a failed request. */
  datatype Probe = Scored(score: real) | NoBars | FetchFailed

  /** The (index, score) pairs collected for `periods[from..]`, in period order;
      periods without bars or whose request failed are skipped. */
  function Scores(periods: seq<string>, probe: string -> Probe, from: nat): (r: seq<(nat, real)>)
    requires from <= |periods|
    decreases |periods| - from
    ensures forall k | 0 <= k < |r| :: from <= r[k].0 < |periods| && probe(periods[r[k].0]) == Scored(r[k].1)
    ensures forall k, l | 0 <= k < l < |r| :: r[k].0 < r[l].0
    ensures forall i | from <= i < |periods| && probe(periods[i]).Scored? :: (i, probe(periods[i]).score) in r
  {
    if from == |periods| then []
    else
      var rest := Scores(periods, probe, from + 1);
      match probe(periods[from])
      case Scored(score) => [(from, score)] + rest
      case _ => rest
  }

  /** `min(scores, key=score)`: the position of the first pair with the smallest score. */
  function FirstMinimum(scores: seq<(nat, real)>): (k: nat)
    requires |scores| > 0
    ensures k < |scores|
    ensures forall l | 0 <= l < |scores| :: scores[k].1 <= scores[l].1
    ensures forall l | 0 <= l < k :: scores[k].1 < scores[l].1
  {
    if |scores| == 1 then 0
    else
      var k := FirstMinimum(scores[..|scores| - 1]);
      if scores[|scores| - 1].1 < scores[k].1 then |scores| - 1 else k
  }

  /** Whether some period could be scored. */
  predicate AnyScored(probe: string -> Probe)
  {
    exists i | 0 <= i < |Periods| :: probe(Periods[i]).Scored?
  }

  /** The index of the period chosen when some period was scored: the lowest score,
      and among equal lowest scores the earliest period. */
  function ChosenIndex(probe: string -> Probe): (i: nat)
    requires AnyScored(probe)
    ensures i < |Periods| && probe(Periods[i]).Scored?
    ensures forall j | 0 <= j < |Periods| && probe(Periods[j]).Scored? ::
              probe(Periods[i]).score <= probe(Periods[j]).score
    ensures forall j | 0 <= j < i && probe(Periods[j]).Scored? ::
              probe(Periods[i]).score < probe(Periods[j]).score
  {
    var scores := Scores(Periods, probe, 0);
    ScoredPeriodListed(probe, scores);
    var k := FirstMinimum(scores);
    EarlierPeriodsScoreHigher(probe, scores, k);
    scores[k].0
  }

  lemma ScoredPeriodListed(probe: string -> Probe, scores: seq<(nat, real)>)
    requires AnyScored(probe) && scores == Scores(Periods, probe, 0)
    ensures |scores| > 0
  {
    var w :| 0 <= w < |Periods| && probe(Periods[w]).Scored?;
    assert (w, probe(Periods[w]).score) in scores;
  }

  lemma EarlierPeriodsScoreHigher(probe: string -> Probe, scores: seq<(nat, real)>, k: nat)
    requires scores == Scores(Periods, probe, 0) && k < |scores|
    requires forall l | 0 <= l < k :: scores[k].1 < scores[l].1
    ensures forall j | 0 <= j < scores[k].0 && probe(Periods[j]).Scored? ::
              probe(Periods[scores[k].0]).score < probe(Periods[j]).score
  {
    forall j | 0 <= j < scores[k].0 && probe(Periods[j]).Scored?
      ensures probe(Periods[scores[k].0]).score < probe(Periods[j]).score
    {
      var l :| 0 <= l < |scores| && scores[l] == (j, probe(Periods[j]).score);
      assert l < k;
    }
  }

  /** The period `dynamic_period_selector` returns. */
  function SelectPeriod(probe: string -> Probe): (p: string)
    ensures p in Periods
    ensures !AnyScored(probe) <==> p == DefaultPeriod && !probe(DefaultPeriod).Scored?
    ensures AnyScored(probe) ==> p == Periods[ChosenIndex(probe)]
  {
    if AnyScored(probe) then Periods[ChosenIndex(probe)] else DefaultPeriod
  }
}

=== FILE: sequences.dfy ===
/** Filtering and mapping sequences, and how that interacts with permutations. */
module Sequences {
  import opened Wrappers

  /** Keeps the elements `f` maps to `Some`, in order, and unwraps them. */
  function FilterMap<T, U>(f: T -> Option<U>, s: seq<T>): (r: seq<U>)
    ensures |r| <= |s|
  {
    if |s| == 0 then []
    else (match f(s[0]) case Some(y) => [y] case None => []) + FilterMap(f, s[1..])
  }

  lemma {:induction false} FilterMapConcat<T, U>(f: T -> Option<U>, a: seq<T>, b: seq<T>)
    ensures FilterMap(f, a + b) == FilterMap(f, a) + FilterMap(f, b)
    decreases |a|
  {
    if |a| == 0 {
      assert a + b == b;
    } else {
      assert (a + b)[0] == a[0];
      assert (a + b)[1..] == a[1..] + b;
      FilterMapConcat(f, a[1..], b);
    }
  }

  /** Every kept element comes from some element of the input, and every element
      `f` keeps is kept. */
  lemma {:induction false} FilterMapMembers<T, U>(f: T -> Option<U>, s: seq<T>)
    ensures forall y | y in FilterMap(f, s) :: exists i | 0 <= i < |s| :: f(s[i]) == Some(y)
    ensures forall i | 0 <= i < |s| && f(s[i]).Some? :: f(s[i]).value in FilterMap(f, s)
    decreases |s|
  {
    if |s| > 0 {
      FilterMapMembers(f, s[1..]);
      forall y | y in FilterMap(f, s)
        ensures exists i | 0 <= i < |s| :: f(s[i]) == Some(y)
      {
        if y !in FilterMap(f, s[1..]) {
          assert f(s[0]) == Some(y);
        } else {
          var i :| 0 <= i < |s[1..]| && f(s[1..][i]) == Some(y);
          assert s[1..][i] == s[i + 1];
        }
      }
      forall i | 0 <= i < |s| && f(s[i]).Some?
        ensures f(s[i]).value in FilterMap(f, s)
      {
        if i > 0 {
          assert s[i] == s[1..][i - 1];
        }
      }
    }
  }

  lemma RemoveAt<T>(b: seq<T>, j: int)
    requires 0 <= j < |b|
    ensures b == b[..j] + [b[j]] + b[j + 1..]
    ensures multiset(b[..j] + b[j + 1..]) == multiset(b) - multiset{b[j]}
  {
    assert b == b[..j] + [b[j]] + b[j + 1..];
  }

  /** Filtering and mapping commutes with reordering. */
  lemma {:induction false} FilterMapPermutation<T, U>(f: T -> Option<U>, a: seq<T>, b: seq<T>)
    requires multiset(a) == multiset(b)
    ensures multiset(FilterMap(f, a)) == multiset(FilterMap(f, b))
    decreases |a|
  {
    if |a| == 0 {
      assert |b| == |multiset(b)| == 0;
    } else {
      var x := a[0];
      assert x in multiset(b);
      var j :| 0 <= j < |b| && b[j] == x;
      var b' := b[..j] + b[j + 1..];
      RemoveAt(b, j);
      assert a == [x] + a[1..];
      assert multiset(a[1..]) == multiset(a) - multiset{x};
      FilterMapPermutation(f, a[1..], b');
      FilterMapConcat(f, [x], a[1..]);
      FilterMapConcat(f, b[..j] + [x], b[j + 1..]);
      FilterMapConcat(f, b[..j], [x]);
      FilterMapConcat(f, b[..j], b[j + 1..]);
    }
  }
}

=== FILE: valuation.dfy ===
/**
 * Portfolio valuation (`update_portfolio_values`): a strategy's portfolio value is
 * its cash plus quantity times current price over the holdings whose ticker has
 * the `BASE/QUOTE` shape; holdings with any other ticker are skipped. Prices come
 * from a price oracle given as a parameter.
 */
module Valuation {
  import opened Ledger

  predicate Upper(c: char)
  {
    'A' <= c <= 'Z'
  }

  /** `[A-Z]+` matches all of `s`. */
  predicate UpperRun(s: string)
  {
    |s| > 0 && forall i | 0 <= i < |s| :: Upper(s[i])
  }

  /** `[A-Z]+/[A-Z]+` matches all of `s`, stated declaratively. */
  ghost predicate PairShape(s: string)
  {
    exists k | 0 <= k < |s| :: s[k] == '/' && UpperRun(s[..k]) && UpperRun(s[k + 1..])
  }

  /** The first index at or after `i` whose character is not in `A`..`Z` (or `|s|`). */
  function UpperSpan(s: string, i: nat): (j: nat)
    requires i <= |s|
    ensures i <= j <= |s|
    decreases |s| - i
  {
    if i < |s| && Upper(s[i]) then UpperSpan(s, i + 1) else i
  }

  /** The pattern `[A-Z]+/[A-Z]+` run over all of `s` as the regular-expression engine
      runs it: `[A-Z]+` cannot consume `/`, so the greedy span decides the match. */
  predicate MatchPair(s: string)
  {
    var i := UpperSpan(s, 0);
    0 < i < |s| && s[i] == '/' && i + 1 < UpperSpan(s, i + 1) == |s|
  }

  /** `re.match(r'^[A-Z]+/[A-Z]+$', s)`: Python's `$` also matches just before a final newline. */
  predicate TickerFormatOk(s: string)
  {
    MatchPair(s) || (|s| > 0 && s[|s| - 1] == '\n' && MatchPair(s[..|s| - 1]))
  }

  lemma {:induction false} UpperSpanCovers(s: string, i: nat)
    requires i <= |s|
    ensures forall k | i <= k < UpperSpan(s, i) :: Upper(s[k])
    ensures UpperSpan(s, i) < |s| ==> !Upper(s[UpperSpan(s, i)])
    decreases |s| - i
  {
    if i < |s| && Upper(s[i]) {
      UpperSpanCovers(s, i + 1);
    }
  }

  lemma {:induction false} UpperSpanStopsAt(s: string, i: nat, j: nat)
    requires i <= j <= |s|
    requires forall k | i <= k < j :: Upper(s[k])
    requires j < |s| ==> !Upper(s[j])
    ensures UpperSpan(s, i) == j
    decreases j - i
  {
    if i < j {
      UpperSpanStopsAt(s, i + 1, j);
    }
  }

  /** The greedy scan accepts exactly the strings of the declarative pattern. */
  lemma MatchPairIsPairShape(s: string)
    ensures MatchPair(s) <==> PairShape(s)
  {
    if MatchPair(s) {
      var i := UpperSpan(s, 0);
      UpperSpanCovers(s, 0);
      UpperSpanCovers(s, i + 1);
      assert UpperRun(s[..i]);
      assert UpperRun(s[i + 1..]);
    }
    if PairShape(s) {
      var k :| 0 <= k < |s| && s[k] == '/' && UpperRun(s[..k]) && UpperRun(s[k + 1..]);
      assert forall m | 0 <= m < k :: s[..k][m] == s[m];
      assert forall m | k + 1 <= m < |s| :: s[k + 1..][m - k - 1] == s[m];
      UpperSpanStopsAt(s, 0, k);
      UpperSpanStopsAt(s, k + 1, |s|);
    }
  }

  /** What one holding adds to the portfolio value. */
  function Contribution(ticker: string, p: Position, price: string -> real): real
  {
    if TickerFormatOk(ticker) then p.quantity * price(ticker) else 0.0
  }

  /** Sum of `f` over the entries of `h`, in no particular order (see `SumRemove`). */
  ghost function Sum(h: map<string, Position>, f: (string, Position) -> real): real
    decreases |h|
  {
    if |h| == 0 then 0.0
    else
      var t := Pick(h);
      assert |h - {t}| == |h| - 1 by { RemoveOne(h, t); }
      f(t, h[t]) + Sum(h - {t}, f)
  }

  /** Some key of a non-empty map. */
  ghost function Pick<V>(h: map<string, V>): (t: string)
    requires |h| > 0
    ensures t in h
  {
    assert h.Keys != {} by { assert |h.Keys| == |h|; }
    var t :| t in h; t
  }

  lemma RemoveOne<K, V>(h: map<K, V>, t: K)
    requires t in h
    ensures |h - {t}| == |h| - 1
  {
    assert (h - {t}).Keys == h.Keys - {t};
  }

  /** Any entry can be split off the sum, whichever entry the definition picks first. */
  lemma {:induction false} SumRemove(h: map<string, Position>, t: string, f: (string, Position) -> real)
    requires t in h
    ensures Sum(h, f) == f(t, h[t]) + Sum(h - {t}, f)
    decreases |h|
  {
    var u := Pick(h);
    if u != t {
      var hu := h - {u};
      var ht := h - {t};
      RemoveOne(h, u);
      RemoveOne(h, t);
      assert t in hu && hu[t] == h[t];
      assert u in ht && ht[u] == h[u];
      SumRemove(hu, t, f);
      SumRemove(ht, u, f);
      assert hu - {t} == ht - {u};
    }
  }

  /** The value of the holdings at the oracle's prices. */
  ghost function HoldingsValue(h: map<string, Position>, price: string -> real): real
  {
    Sum(h, (t, p) => Contribution(t, p, price))
  }

  /** Any holding can be split off the valuation. */
  lemma HoldingsValueRemove(h: map<string, Position>, t: string, price: string -> real)
    requires t in h
    ensures HoldingsValue(h, price) == Contribution(t, h[t], price) + HoldingsValue(h - {t}, price)
  {
    SumRemove(h, t, (t, p) => Contribution(t, p, price));
  }

  /** Adding a holding adds exactly its contribution. */
  lemma HoldingsValueAdd(h: map<string, Position>, t: string, p: Position, price: string -> real)
    requires t !in h
    ensures HoldingsValue(h[t := p], price) == Contribution(t, p, price) + HoldingsValue(h, price)
  {
    HoldingsValueRemove(h[t := p], t, price);
    assert h[t := p] - {t} == h;
  }

  /** Holdings with a malformed ticker are worth nothing to the valuation. */
  lemma {:induction false} MalformedHoldingsWorthNothing(h: map<string, Position>, price: string -> real)
    requires forall t | t in h :: !TickerFormatOk(t)
    ensures HoldingsValue(h, price) == 0.0
    decreases |h|
  {
    if |h| > 0 {
      var t :| t in h;
      HoldingsValueRemove(h, t, price);
      RemoveOne(h, t);
      MalformedHoldingsWorthNothing(h - {t}, price);
    }
  }

  /** Long positions at non-negative prices never make the valuation fall below the cash. */
  lemma {:induction false} HoldingsValueNonNegative(h: map<string, Position>, price: string -> real)
    requires forall t | t in h :: h[t].quantity >= 0.0 && price(t) >= 0.0
    ensures HoldingsValue(h, price) >= 0.0
    decreases |h|
  {
    if |h| > 0 {
      var t :| t in h;
      HoldingsValueRemove(h, t, price);
      RemoveOne(h, t);
      HoldingsValueNonNegative(h - {t}, price);
    }
  }

  /** The revaluation of one strategy document: only the portfolio value is rewritten. */
  ghost function Revalue(a: Account, price: string -> real): (r: Account)
    ensures r == a.(portfolioValue := r.portfolioValue)
  {
    a.(portfolioValue := a.cash + HoldingsValue(a.holdings, price))
  }

  /** A strategy without well-formed tickers is valued at its cash. */
  lemma RevalueCashOnly(a: Account, price: string -> real)
    requires forall t | t in a.holdings :: !TickerFormatOk(t)
    ensures Revalue(a, price).portfolioValue == a.cash
  {
    MalformedHoldingsWorthNothing(a.holdings, price);
  }

  /** A sound ledger at non-negative prices is valued at least at its cash. */
  lemma RevalueAtLeastCash(a: Account, price: string -> real)
    requires Sound(a)
    requires forall t | t in a.holdings :: price(t) >= 0.0
    ensures Revalue(a, price).portfolioValue >= a.cash
  {
    HoldingsValueNonNegative(a.holdings, price);
  }

  /** Every price the account's holdings are valued at is non-negative. */
  ghost predicate PricesNonNegative(a: Account, price: string -> real)
  {
    forall t | t in a.holdings :: price(t) >= 0.0
  }

  /** No holding of the account has a ticker the valuation counts. */
  ghost predicate CashOnly(a: Account)
  {
    forall t | t in a.holdings :: !TickerFormatOk(t)
  }

  /** Every strategy document is revalued: each keeps its name, cash, holdings and
      counters, a sound one at non-negative prices is worth at least its cash, and
      one without well-formed tickers is worth exactly its cash. */
  ghost function RevalueAll(docs: seq<Account>, price: string -> real): (r: seq<Account>)
    ensures |r| == |docs|
    ensures forall i | 0 <= i < |docs| :: r[i] == Revalue(docs[i], price)
    ensures forall i | 0 <= i < |docs| :: r[i] == docs[i].(portfolioValue := r[i].portfolioValue)
    ensures forall i | 0 <= i < |docs| && Sound(docs[i]) && PricesNonNegative(docs[i], price) ::
              r[i].portfolioValue >= docs[i].cash
    ensures forall i | 0 <= i < |docs| && CashOnly(docs[i]) :: r[i].portfolioValue == docs[i].cash
  {
    var r := seq(|docs|, i requires 0 <= i < |docs| => Revalue(docs[i], price));
    assert forall i | 0 <= i < |docs| && Sound(docs[i]) && PricesNonNegative(docs[i], price) ::
             r[i].portfolioValue >= docs[i].cash by {
      forall i | 0 <= i < |docs| && Sound(docs[i]) && PricesNonNegative(docs[i], price)
        ensures r[i].portfolioValue >= docs[i].cash
      {
        RevalueAtLeastCash(docs[i], price);
      }
    }
    assert forall i | 0 <= i < |docs| && CashOnly(docs[i]) :: r[i].portfolioValue == docs[i].cash by {
      forall i | 0 <= i < |docs| && CashOnly(docs[i])
        ensures r[i].portfolioValue == docs[i].cash
      {
        RevalueCashOnly(docs[i], price);
      }
    }
    r
  }

  /**
   * A simulated trade at the oracle's own price moves value between cash and the
   * position and leaves the valued portfolio unchanged, provided the ticker has the
   * shape the valuation counts.
   */
  lemma TradeAtMarketKeepsValue(a: Account, ticker: string, action: string, qty: real, timeDelta: real,
                                price: string -> real, b: Account)
    requires TickerFormatOk(ticker)
    requires Trade(a, ticker, price(ticker), action, qty, timeDelta).Success?
    requires b == Trade(a, ticker, price(ticker), action, qty, timeDelta).value.account
    ensures Revalue(b, price).portfolioValue == Revalue(a, price).portfolioValue
  {
    TradeConservesMarkValue(a, ticker, price(ticker), action, qty, timeDelta, b);
    ValueShift(a, b, ticker, price);
  }

  /** Moving value between the cash and one well-formed holding keeps the valuation. */
  lemma ValueShift(a: Account, b: Account, t: string, price: string -> real)
    requires TickerFormatOk(t)
    requires OtherHoldingsUnchanged(a.holdings, b.holdings, t)
    requires b.cash + HeldQuantity(b, t) * price(t) == a.cash + HeldQuantity(a, t) * price(t)
    ensures Revalue(b, price).portfolioValue == Revalue(a, price).portfolioValue
  {
    SplitOff(a, t, price);
    SplitOff(b, t, price);
    SameRest(a.holdings, b.holdings, t);
  }

  lemma SameRest(h: map<string, Position>, h': map<string, Position>, t: string)
    requires OtherHoldingsUnchanged(h, h', t)
    ensures h - {t} == h' - {t}
  {
  }

  /** The valuation splits into the ticker's own holding and all the others. */
  lemma SplitOff(a: Account, t: string, price: string -> real)
    requires TickerFormatOk(t)
    ensures HoldingsValue(a.holdings, price) == HeldQuantity(a, t) * price(t) + HoldingsValue(a.holdings - {t}, price)
  {
    if t in a.holdings {
      HoldingsValueRemove(a.holdings, t, price);
    } else {
      assert a.holdings - {t} == a.holdings;
    }
  }
}

=== FILE: wrappers.dfy ===
/** Option and Result, used by every module of the model. */
module Wrappers {

  /** A value that may be absent: a missing document, a missing map key, a None. */
  datatype Option<+T> = None | Some(value: T) {

    /** The wrapped value, or `default` when absent (Python's `dict.get(k, default)`). */
    function GetOr(default: T): (r: T)
      ensures Some? ==> r == value
      ensures None? ==> r == default
    {
      match this
      case Some(v) => v
      case None => default
    }
  }

  /** Either a value or the error the source would have raised instead. */
  datatype Result<+R, +E> = Success(value: R) | Failure(error: E)

  /** Looks a key up in a map, as `collection.find_one({key: k})` does. */
  function Lookup<K, V>(m: map<K, V>, k: K): (r: Option<V>)
    ensures r.Some? <==> k in m
    ensures r.Some? ==> r.value == m[k]
  {
    if k in m then Some(m[k]) else None
  }
}
